=== FILE: README.md ===
# xbt dictionary and model-checker request oracles, in Dafny

This project models two pieces of the SimGrid simulation kernel and proves
properties of them.

**The xbt dictionary (`src/xbt/dict.cpp`).** This is a string-keyed hash
table with chained buckets.
- `table_size + 1` buckets, always a power of two. `table_size` doubles as
  the bit mask that selects a key's bucket.
- `count` is the number of cells and `fill` the number of non-empty
  buckets.
- The table doubles in place when an insertion into an empty bucket
  leaves `fill * 100 / (table_size + 1) > 80`, that is, at least 81% of
  the buckets in use in integer percentage. Each chain is split between
  its own bucket and its twin bucket `i + oldsize`.

The model is functional. A `Dict` value stands for the C structure, and
every mutating call returns the new dictionary. `Model(d)` is the abstract
key-to-data map the table stands for. The invariant `Valid` says:
- every cell caches its key's hash and sits in the bucket that hash selects;
- keys are unique within a chain;
- `count` and `fill` equal the sums over the buckets.

Modules:
- `DictChain`: one bucket chain.
- `DictTable`: the bucket table, its view and the bucket sums.
- `XbtDict`: the public operations.

**The request oracles of the model checker (`src/mc/mc_base.cpp`).**
- `actor_is_enabled` decides whether an actor's pending request can fire
  without blocking the exploration.
- `request_is_visible` says which requests the exploration sees at all.
- `wait_for_requests` runs the ready actors round after round. Each round
  it services every invisible, non-empty request on the spot.
- The random-draw handler returns the recorded value when replaying.

Modules:
- `McSimcall`: requests, communications and mutexes.
- `McBase`: the oracles and the random draws.
- `McScheduler`: the loop.

The doc comment above `actor_is_enabled` (`src/mc/mc_base.cpp:60-69`)
says that a wait proceeds in only two situations: both peers of the
communication are present, or a timeout was given. The code below it
differs in two places, and the model follows the code:
- Without a timeout, a detached, READY communication with no sender is
  enabled as soon as it has a receiver. It does not need both peers.
- A timeout makes a wait enabled only when `_sg_mc_timeout == 1`. With any
  other value the wait requires both peers, and the detached/READY
  exception does not apply. `TimeoutPolicyOffSkipsDetachedRule` shows this
  on a concrete communication.

## Model

| member | source | states |
|---|---|---|
| DictChain.Find | src/xbt/dict.cpp:147-152 | The chain walk stops at the first cell with equal hash code and equal key; if it stops nowhere, no cell of the chain matches. |
| DictChain.FindIsLookup | src/xbt/dict.cpp:199-213 | In a chain whose cells cache their keys' hashes, the walk finds `k` exactly when `k` is in the chain's view, and the cell found holds the view's data for `k`. |
| DictChain.ChainSet | src/xbt/dict.cpp:147-165 | The walk and link of one insertion. Afterwards the walk finds `k` and its cell holds `v`. The chain grows by one cell exactly when `k` was not found, and otherwise keeps its length. Its effect on the view is stated by `ChainSetSpec`. |
| DictChain.ChainSetSpec | src/xbt/dict.cpp:147-171 | Insertion into a chain updates its view at `k` and nothing else. It keeps keys unique and hashes cached. It adds exactly one cell when `k` was absent and none otherwise, and adds no cell with another key. |
| DictChain.ChainRemoveCells | src/xbt/dict.cpp:335-339 | Unlinking the cell at position `j` (`ChainRemove`) removes exactly that cell. The others remain, in their order. `ChainRemoveMap` states the effect on the view. |
| DictChain.ChainRemoveMap | src/xbt/dict.cpp:326-340 | Unlinking the matching cell from a chain with unique keys removes exactly that key from the chain's view. |
| DictChain.SplitChain | src/xbt/dict.cpp:103-119 | The pointer loop over one bucket ends with the cells that still select bucket `i` in their original order, and the moved cells pushed onto the twin's head, so they appear in reverse order. |
| DictChain.SelectKeepsKey | src/xbt/dict.cpp:107-110 | A key whose hash selects the side being kept is in the kept cells' view exactly when it was in the chain's view, with the same data. |
| DictTable.DoubledBucket | src/xbt/dict.cpp:107-109 | After the table doubles, a hash code that selected bucket `b` selects either `b` or `b + oldsize`. |
| DictTable.TableMapAt | src/xbt/dict.cpp:202-207 | In a placed table a key can only be found in the bucket its hash selects, and the table's view agrees there with that chain's view. |
| DictTable.TableMapSize | src/xbt/dict.cpp:81-84 | In a placed table with unique chains, the number of entries of the view is the number of cells. |
| XbtDict.New | src/xbt/dict.cpp:33-48 | A new dictionary has 128 empty buckets, `count == fill == 0`, satisfies the invariant, and has no entry. |
| XbtDict.Size | src/xbt/dict.cpp:81-84 | The size of a null dictionary is 0. Otherwise it is the number of entries of its view. |
| XbtDict.Length | src/xbt/dict.cpp:387-390 | `count` is the number of entries of the view. |
| XbtDict.IsEmpty | src/xbt/dict.cpp:395-398 | True exactly for a null dictionary or one whose view is empty. |
| XbtDict.SplitBucket | src/xbt/dict.cpp:99-123 | One turn of the rehash loop over bucket `i`. It keeps the table's length. `SplitBucketSpec` states what the turn does. |
| XbtDict.RehashBuckets | src/xbt/dict.cpp:99-123 | The rehash loop from bucket `i` on. It keeps the table's length. `RehashBucketsSpec` states what the loop does. |
| XbtDict.SplitBucketSpec | src/xbt/dict.cpp:99-123 | One turn of the rehash loop splits bucket `i` into its kept cells and, in the empty twin, the moved cells reversed. It leaves every other bucket alone and keeps `fill` equal to the number of non-empty buckets. |
| XbtDict.RehashBucketsSpec | src/xbt/dict.cpp:99-123 | The loop over buckets `i .. oldsize-1` splits each of them between itself and its twin, leaves earlier buckets alone, and ends with `fill` counting the non-empty buckets. |
| XbtDict.RehashKeepsView | src/xbt/dict.cpp:87-124 | Splitting every bucket keeps every cell in the bucket its hash selects in the doubled table, keeps keys unique, and leaves the view unchanged. |
| XbtDict.Rehash | src/xbt/dict.cpp:87-124 | The rehash doubles the number of buckets and keeps the invariant, the view, the count and the hash function. |
| XbtDict.RehashMovesToTwin | src/xbt/dict.cpp:99-119 | After the rehash, bucket `i` and its twin `i + oldsize` hold only cells that bucket `i` held before. |
| XbtDict.StoreView | src/xbt/dict.cpp:147-165 | Storing `k -> v` in its bucket keeps the table placed with unique chains, and the view becomes the old view updated at `k`. |
| XbtDict.StoreCounts | src/xbt/dict.cpp:154-171 | A cell is added exactly when `k` was absent, and a bucket is filled exactly when the key's bucket was empty, which implies that `k` was absent. |
| XbtDict.Store | src/xbt/dict.cpp:147-171 | The linking step keeps the invariant and the table size, binds `k` to `v` in the view, and adjusts `count` and `fill` as above. |
| XbtDict.Set | src/xbt/dict.cpp:137-172 | Setting keeps the invariant, makes the view the old view updated at `k`, and adds one to the count exactly when `k` was absent. |
| XbtDict.Crowded | src/xbt/dict.cpp:161 | The fill test `fill * 100 / (table_size + 1) > 80`, in integer division. `SetGrowth` states that it alone decides, after a new bucket is filled, whether the table doubles. |
| XbtDict.SetGrowth | src/xbt/dict.cpp:158-162 | The table either keeps its size or doubles. It doubles exactly when the key's bucket was empty and the new fill is `Crowded`, i.e. at least 81% of the buckets in integer percentage. |
| XbtDict.CrowdedThreshold | src/xbt/dict.cpp:161 | The percentage is truncated before the comparison: with 128 buckets, 103 non-empty buckets (80.5%) do not trigger a rehash, and 104 do. |
| XbtDict.GetElmOrNull | src/xbt/dict.cpp:301-309 | Returns a cell exactly when `k` is in the view. That cell holds `k` with its data and lies in the bucket `k`'s hash selects. |
| XbtDict.GetElm | src/xbt/dict.cpp:275-283 | Fails with not-found exactly when `k` is absent. Otherwise it returns the cell of `k` with its data. |
| XbtDict.Get | src/xbt/dict.cpp:199-213 | Fails with not-found exactly when `k` is absent. Otherwise it returns the data the view binds to `k`. |
| XbtDict.GetOrNull | src/xbt/dict.cpp:216-230 | Returns the view's data for `k`, or null when `k` is absent. |
| XbtDict.GetKey | src/xbt/dict.cpp:237-248 | A key found is bound to `data` in the view, and its cell is the first holding `data` in bucket order and chain order. When no key is found, `data` is not among the view's values. |
| XbtDict.UnlinkView | src/xbt/dict.cpp:334-340 | Unlinking the cell of `k` keeps the table placed with unique chains, and the view loses exactly `k`. |
| XbtDict.UnlinkCounts | src/xbt/dict.cpp:342-346 | Unlinking removes one cell. The number of non-empty buckets drops by one exactly when the bucket became empty. |
| XbtDict.Remove | src/xbt/dict.cpp:320-347 | Fails with not-found exactly when `k` is absent. Otherwise it keeps the invariant and the table size, removes exactly `k` from the view, and decrements the count. |
| XbtDict.Reset | src/xbt/dict.cpp:363-381 | Reset empties every bucket, keeps the table size and the hash function, sets `count` and `fill` to 0, and leaves an empty view. |
| XbtDict.GetAfterSet | src/xbt/dict.cpp:137-230 | A get right after a set returns the value just set. A lookup of any other key returns what it returned before. |
| XbtDict.RemoveAfterSet | src/xbt/dict.cpp:137-347 | Setting a fresh key and removing it again gives back the same view and the same count. |
| XbtDict.RemoveTwice | src/xbt/dict.cpp:320-347 | After a removal the key reads as null, and a second removal fails with not-found. |
| McBase.AnyCommReady | src/mc/mc_base.cpp:106-115 | The wait-any loop answers true exactly when some candidate communication has both peers bound, so an empty list answers false. |
| McBase.ActorIsEnabled | src/mc/mc_base.cpp:72-145 | Gives the decision table case by case. An empty request is never enabled. A comm-wait with a timeout is enabled when the policy flag is 1 and otherwise needs both peers. A comm-wait without a timeout on a detached, READY communication with no sender needs only a receiver; any other needs both peers. A wait-any is enabled when some candidate has both peers. A mutex lock is enabled when the mutex is free or owned by the issuer. Every other kind is enabled. |
| McBase.RendezvousEnabled | src/mc/mc_base.cpp:88-115 | A comm-wait whose communication has both peers bound is enabled under either timeout policy. So is a wait-any that has it among its candidates. |
| McBase.MutexOfOtherBlocks | src/mc/mc_base.cpp:117-123 | A lock on a mutex owned by another actor is never enabled. |
| McBase.TimeoutPolicyOffSkipsDetachedRule | src/mc/mc_base.cpp:93-103 | With the policy flag not 1, a detached, READY communication that has only its receiver is enabled without a timeout and disabled with one. |
| McBase.RequestIsVisible | src/mc/mc_base.cpp:150-160 | The invisible requests are exactly: the empty request, semaphore acquire, condition wait, and every kind outside the ten listed. |
| McBase.InvisibleRequestsAreEnabled | src/mc/mc_base.cpp:125-160 | Every non-empty request the exploration does not see is enabled. So only visible requests can block. |
| McBase.McRandomHandler | src/mc/mc_base.cpp:165-173 | Under the model checker or with a record path, the handler returns the recorded value whatever the bounds. Otherwise it returns a draw within `[min, max]`. |
| McBase.McRandomCall | src/mc/mc_base.cpp:27-34 | Fails exactly when called from the checker process. Otherwise it returns the handler's value. |
| McBase.ReplayReturnsRecorded | src/mc/mc_base.cpp:165-173 | In replay mode a run of random calls returns exactly the recorded sequence. |
| McBase.ReplayRoundTrip | src/mc/mc_base.cpp:165-173 | Replaying the values a free run returned reproduces that run, whatever bounds and generator values the replaying run passes. |
| McScheduler.RunActors | src/mc/mc_base.cpp:45 | Every actor that runs holds the request it issued this round. No other actor's request changes. |
| McScheduler.Answer | src/kernel/activity/ActivityImpl.hpp:29-36 | The kernel answering a set of waiting requests, as an activity's `finish()` answers every simcall in its `simcalls_` list. Each pending request among them is cleared. The ready list gains exactly the actors whose pending requests were cleared, appended at its end. The requests of actors not named stay unchanged, and every request either stays unchanged or is cleared. |
| McScheduler.ServiceOne | src/mc/mc_base.cpp:47-49 | One turn of the inner loop. A request that is empty or visible is left alone, and so is the whole kernel state. A serviceable request is handed to the handler. Afterwards the actor's request is settled, every request is unchanged or cleared, and the ready list gains exactly the actors whose pending requests were cleared. |
| McScheduler.ServiceRequests | src/mc/mc_base.cpp:46-50 | After the inner loop, every actor that ran holds a settled request: empty, visible, or not answered. A request that was serviceable and answered on the spot is cleared. Handling one request may also answer other actors' waiting requests. Requests are only ever cleared, never rewritten. The ready list keeps its old entries as a prefix and gains exactly the actors whose pending requests were cleared. When no actor that ran holds a non-empty, invisible request, the kernel state is left unchanged. |
| McScheduler.Round | src/mc/mc_base.cpp:45-50 | One pass of the outer loop. Every actor that ran holds a settled request, and every actor made ready again holds a cleared one. Other actors' requests are unchanged or cleared. With nobody ready again, the actors that ran still hold the requests they issued. When the actors never issue a serviceable request, nobody is ready again. |
| McScheduler.WaitForRequests | src/mc/mc_base.cpp:39-51 | The loop does nothing when no actor is ready. While it runs, every actor on the ready list holds a cleared request, and every actor that has run holds a settled request unless it is ready again. When the loop stops with nobody ready, every actor that ran in any round holds an empty, visible or blocking request. Every actor of the last round still holds the request it issued then. When the actors never issue a serviceable request, the loop stops after one round. |

## Left out

- Memory management: `xbt_dict_free`, the cell mallocator (`xbt_dict_preinit`, `xbt_dict_postexit`) and the data free function. A functional model has nothing to free.
- Logging (`XBT_DEBUG`, `XBT_CDEBUG`, `XBT_INFO`) and the one-shot `warned` flags of the semaphore and condition cases. They only gate log lines.
- The body of the string hashes. `xbt_dict_get_elm_or_null` hashes with `xbt_str_hash(key)` (`src/xbt/dict.cpp:303`). The other operations hash with `xbt_str_hash_ext(key, key_len)` (`src/xbt/dict.cpp:140`, `201`, `218`, `322`). The model has one field `hash`, fixed at creation and ranging over 32-bit values. It therefore assumes that `xbt_str_hash(s)` equals `xbt_str_hash_ext(s, strlen(s))` for every key. The hash functions are not part of this model. Without that assumption a key stored by `xbt_dict_set` could be searched for in another bucket by `xbt_dict_get`.
- The `_ext` variants take an explicit key length. For a key that is a character sequence, and under the hash assumption above, they coincide with the null-terminated variants. Each pair is therefore one member.
- Key comparison: two comparisons stop at a NUL byte. `remove_ext` uses `strncmp` (`src/xbt/dict.cpp:327`), and `get_elm_or_null` uses `strcmp` (`src/xbt/dict.cpp:306`), so `get`, `get_elm` and `get_or_null` do too. `set_ext`, `get_ext` and `get_or_null_ext` use `memcmp` (`src/xbt/dict.cpp:149`, `205`, `222`). Keys are character sequences without an embedded NUL, on which all of these agree. Keys with an embedded NUL are not modelled.
- Bucket selection `hash & table_size` is modelled as `hash % (table_size + 1)`. The two agree because `table_size + 1` is kept a power of two.
- Integer widths: `count`, `fill`, `table_size` and the `unsigned` result of `xbt_dict_size` are unbounded here.
- Crowded: the product `fill * 100` is unbounded here. At `src/xbt/dict.cpp:161` it overflows once `fill` passes 21,474,836 non-empty buckets, or 42,949,672 if `fill` is unsigned. The growth trigger for a table of 2^25 buckets needs at least 27,179,090 non-empty buckets, so the overflow comes first. In C the overflow is undefined. In practice the percentage wraps, and the table stops doubling at 2^25 buckets (2^26 if unsigned). The model keeps doubling beyond that size.
- SetGrowth: states that the table doubles whenever `Crowded` holds, which matches the source only below the overflow threshold given on the `Crowded` line.
- GetOrNull: a null datum stored under a key cannot be told apart from a missing key in the C code. The model returns `Some` of whatever was stored.
- GetKey: compares data by pointer in the source, and by value equality on the data type here.
- The cross-process branch of `actor_is_enabled` (the checker asks the application) and the `xbt_assert` guards of `wait_for_requests` and `request_is_visible`. These are remote-memory plumbing. The guard of `MC_random` is modelled as a failure.
- The rebuild of `actors_vector` at the end of `wait_for_requests`. It is bookkeeping that no oracle reads.
- McRandomHandler: the pseudo-random generator of the free mode is not modelled. Its draw is a parameter required to lie in `[min, max]`.
- WaitForRequests: runs at most `fuel` rounds, where the source loops until no actor is ready and need not terminate. When fuel runs out, the contract only states that actors left ready hold cleared requests.
- WaitForRequests: `run_all_actors` is abstracted as `issue(pid, round)`, the request an actor issues when it runs. The actors' code is not part of this model.
- ServiceRequests: `SIMIX_simcall_handle` is abstracted by two parameters. `answersNow` says whether the kernel answers the serviced request on the spot. `wakes` names the other actors whose waiting requests the handler answers, for example by finishing an activity. The kernel's handlers are not part of this model. The model assumes a handler only answers requests, which clears them and reschedules their actors. It never rewrites a waiting request into a different one.
- Communication readiness: only the READY value is tested by the code, so readiness is `Pending | Ready | Done`. The activity state and reference counting of `src/kernel/activity/ActivityImpl.hpp` are not part of this model. Its list of waiting simcalls is reflected by `wakes`.
- The routing example `s4u-routing-get-clusters.cpp` and the Java `Barrier` binding. They are callers, not part of the core.

=== FILE: dict.dfy ===
/** The xbt dictionary (src/xbt/dict.cpp): a string-keyed hash table with
    chained buckets whose table doubles in place when the integer percentage
    `fill * 100 / (table_size + 1)` of non-empty buckets exceeds 80, that
    is, from 81% on. A dictionary value is immutable here; every operation
    that changes the C structure returns the new dictionary. */
module XbtDict {
  import opened Wrappers
  import opened DictChain
  import opened DictTable

  /** Largest integer percentage of non-empty buckets an insertion may leave
      behind without a rehash. */
  const MaxFillPercent: nat := 80

  /** `table_size` of a new dictionary: 128 buckets. */
  const InitialTableSize: nat := 127

  /** The exception the lookups and the removal raise on a missing key. */
  datatype DictError = NotFound(key: Key)

  /** The dictionary structure. `hash` is the string hash the source calls
      (its body is not part of this model), fixed once per dictionary;
      `tableSize` is both the largest bucket index and the bit mask of the
      bucket index; `count` is the number of cells and `fill` the number of
      non-empty buckets. */
  datatype Dict<D> = Dict(hash: Key -> HashCode, table: Table<D>, tableSize: nat, count: nat, fill: nat)

  /** What every dictionary built by the operations below satisfies. */
  ghost predicate Valid<D>(d: Dict<D>) {
    && |d.table| == d.tableSize + 1
    && IsPow2(|d.table|)
    && Placed(d.table, d.hash, |d.table|)
    && ChainsUnique(d.table)
    && d.count == SumOver(d.table, Len)
    && d.fill == SumOver(d.table, Occupied)
  }

  /** The abstract key-to-data map a dictionary stands for. */
  function Model<D>(d: Dict<D>): map<Key, D> {
    TableMap(d.table)
  }

  lemma Pow2Of128()
    ensures IsPow2(128)
  {
    assert IsPow2(1) && IsPow2(2) && IsPow2(4) && IsPow2(8);
    assert IsPow2(16) && IsPow2(32) && IsPow2(64);
  }

  /** xbt_dict_new_homogeneous: 128 empty buckets, no cell. */
  function New<D>(hash: Key -> HashCode): (d: Dict<D>)
    ensures Valid(d) && Model(d) == map[]
    ensures d.tableSize == 127 && |d.table| == 128 && d.count == 0 && d.fill == 0
    ensures forall i | 0 <= i < |d.table| :: d.table[i] == []
    ensures d.hash == hash
  {
    var t: Table<D> := Empties(InitialTableSize + 1);
    Pow2Of128();
    SumEmpties(t, Len);
    SumEmpties(t, Occupied);
    EmptiesView(t);
    Dict(hash, t, InitialTableSize, 0, 0)
  }

  lemma CountIsSize<D>(d: Dict<D>)
    requires Valid(d)
    ensures d.count == |Model(d)|
  {
    TableMapSize(d.table, d.hash, |d.table|);
  }

  /** xbt_dict_size: the number of entries, 0 for a null dictionary. */
  function Size<D>(d: Option<Dict<D>>): (r: nat)
    requires d.Some? ==> Valid(d.value)
    ensures d.None? ==> r == 0
    ensures d.Some? ==> r == |Model(d.value)|
  {
    match d
    case None => 0
    case Some(x) => CountIsSize(x); x.count
  }

  /** xbt_dict_length: the number of entries of a non-null dictionary. */
  function Length<D>(d: Dict<D>): (r: nat)
    requires Valid(d)
    ensures r == |Model(d)|
  {
    CountIsSize(d);
    d.count
  }

  /** xbt_dict_is_empty: true for a null dictionary or one without entries. */
  function IsEmpty<D>(d: Option<Dict<D>>): (r: bool)
    requires d.Some? ==> Valid(d.value)
    ensures r <==> d.None? || Model(d.value) == map[]
  {
    d.None? || Length(d.value) == 0
  }

  // ---------------------------------------------------------------------
  // Rehash

  /** One turn of the rehash loop: splits old bucket `i` between itself and
      its twin `i + oldsize`. `fill` gains one when the empty twin receives
      its first cell and loses one when every cell left bucket `i`. */
  function SplitBucket<D>(t: Table<D>, oldsize: nat, i: nat, fill: int): (r: (Table<D>, int))
    requires |t| == 2 * oldsize && i < oldsize
    ensures |r.0| == |t|
  {
    if t[i] == [] then (t, fill)
    else
      var split := SplitChain(t[i], i, 2 * oldsize, [], t[i + oldsize]);
      var grown := if split.1 != [] then fill + 1 else fill;
      var shrunk := if split.0 == [] then grown - 1 else grown;
      (t[i := split.0][i + oldsize := split.1], shrunk)
  }

  lemma SplitBucketSpec<D>(t: Table<D>, oldsize: nat, i: nat, fill: int)
    requires 0 < oldsize && |t| == 2 * oldsize && i < oldsize
    requires t[i + oldsize] == [] && fill == SumOver(t, Occupied)
    ensures var r := SplitBucket(t, oldsize, i, fill);
            && r.1 == SumOver(r.0, Occupied)
            && r.0[i] == Select(t[i], i, 2 * oldsize, true)
            && r.0[i + oldsize] == Reverse(Select(t[i], i, 2 * oldsize, false))
            && forall j | 0 <= j < |t| && j != i && j != i + oldsize :: r.0[j] == t[j]
  {
    if t[i] != [] {
      var split := SplitChain(t[i], i, 2 * oldsize, [], t[i + oldsize]);
      var t1 := t[i := split.0];
      SumUpdate(t, i, split.0, Occupied);
      SumUpdate(t1, i + oldsize, split.1, Occupied);
    }
  }

  /** The loop of xbt_dict_rehash over old buckets `i .. oldsize - 1` of a
      table already grown to `2 * oldsize` buckets. */
  function RehashBuckets<D>(t: Table<D>, oldsize: nat, i: nat, fill: int): (r: (Table<D>, int))
    requires |t| == 2 * oldsize && i <= oldsize
    ensures |r.0| == |t|
    decreases oldsize - i
  {
    if i == oldsize then (t, fill)
    else
      var s := SplitBucket(t, oldsize, i, fill);
      RehashBuckets(s.0, oldsize, i + 1, s.1)
  }

  /** Starting with the twins of the buckets still to split empty and `fill`
      counting the non-empty buckets, the loop leaves every bucket `j` split
      into its kept cells and, in its twin, the reversed moved cells, and
      `fill` counting the non-empty buckets of the result. */
  lemma {:induction false} RehashBucketsSpec<D>(t: Table<D>, oldsize: nat, i: nat, fill: int)
    requires 0 < oldsize && |t| == 2 * oldsize && i <= oldsize
    requires forall j | oldsize + i <= j < 2 * oldsize :: t[j] == []
    requires fill == SumOver(t, Occupied)
    ensures var r := RehashBuckets(t, oldsize, i, fill);
            && r.1 == SumOver(r.0, Occupied)
            && (forall j | 0 <= j < i :: r.0[j] == t[j])
            && (forall j | oldsize <= j < oldsize + i :: r.0[j] == t[j])
            && (forall j | i <= j < oldsize ::
                  && r.0[j] == Select(t[j], j, 2 * oldsize, true)
                  && r.0[j + oldsize] == Reverse(Select(t[j], j, 2 * oldsize, false)))
    decreases oldsize - i
  {
    if i < oldsize {
      var s := SplitBucket(t, oldsize, i, fill);
      assert t[i + oldsize] == [];
      SplitBucketSpec(t, oldsize, i, fill);
      RehashBucketsSpec(s.0, oldsize, i + 1, s.1);
      var r := RehashBuckets(t, oldsize, i, fill);
      assert r == RehashBuckets(s.0, oldsize, i + 1, s.1);
      assert r.0[i] == s.0[i] && r.0[i + oldsize] == s.0[i + oldsize];
      forall j | i < j < oldsize
        ensures r.0[j] == Select(t[j], j, 2 * oldsize, true)
        ensures r.0[j + oldsize] == Reverse(Select(t[j], j, 2 * oldsize, false))
      {
        assert s.0[j] == t[j];
      }
    }
  }

  /** The table the rehash produces from `t`: old bucket `j` keeps the cells
      that still select it and its twin `j + |t|` holds the others, reversed. */
  ghost predicate IsRehashOf<D>(t2: Table<D>, t: Table<D>)
  {
    && |t2| == 2 * |t|
    && (forall j | 0 <= j < |t| ::
          && t2[j] == Select(t[j], j, 2 * |t|, true)
          && t2[j + |t|] == Reverse(Select(t[j], j, 2 * |t|, false)))
  }

  lemma InReverse<D>(c: Chain<D>, e: Elm<D>)
    requires e in Reverse(c)
    ensures e in c
  {
    var r := Reverse(c);
    var a :| 0 <= a < |r| && r[a] == e;
    assert c[|c| - 1 - a] == e;
  }

  /** Splitting every bucket keeps every cell in the bucket its hash code
      selects in the doubled table. */
  lemma RehashPlaced<D>(t: Table<D>, t2: Table<D>, hash: Key -> HashCode)
    requires |t| > 0 && Placed(t, hash, |t|) && IsRehashOf(t2, t)
    ensures Placed(t2, hash, |t2|)
  {
    var n := |t|;
    forall i, e: Elm<D> | 0 <= i < |t2| && e in t2[i]
      ensures e.hashCode == hash(e.key) && Bucket(e.hashCode, 2 * n) == i
    {
      if i < n {
        assert e in Select(t[i], i, 2 * n, true);
      } else {
        var k := i - n;
        var s := Select(t[k], k, 2 * n, false);
        assert t2[k + n] == Reverse(s);
        InReverse(s, e);
        assert e in t[k];
        DoubledBucket(e.hashCode, n);
      }
    }
  }

  lemma RehashUnique<D>(t: Table<D>, t2: Table<D>)
    requires |t| > 0 && ChainsUnique(t) && IsRehashOf(t2, t)
    ensures ChainsUnique(t2)
  {
    var n := |t|;
    forall i | 0 <= i < |t2| ensures UniqueKeys(t2[i]) {
      if i < n {
        SelectUnique(t[i], i, 2 * n, true);
      } else {
        var k := i - n;
        assert t2[k + n] == Reverse(Select(t[k], k, 2 * n, false));
        SelectUnique(t[k], k, 2 * n, false);
        ReverseMap(Select(t[k], k, 2 * n, false));
      }
    }
  }

  /** Splitting every bucket keeps the cells placed, keys unique, and the view. */
  lemma RehashKeepsView<D>(t: Table<D>, t2: Table<D>, hash: Key -> HashCode)
    requires |t| > 0 && Placed(t, hash, |t|) && ChainsUnique(t)
    requires IsRehashOf(t2, t)
    ensures Placed(t2, hash, |t2|) && ChainsUnique(t2)
    ensures TableMap(t2) == TableMap(t)
  {
    RehashPlaced(t, t2, hash);
    RehashUnique(t, t2);
    forall k ensures (k in TableMap(t2) <==> k in TableMap(t))
      && (k in TableMap(t) ==> TableMap(t2)[k] == TableMap(t)[k])
    {
      RehashKeepsKey(t, t2, hash, k);
    }
  }

  lemma RehashKeepsKey<D>(t: Table<D>, t2: Table<D>, hash: Key -> HashCode, k: Key)
    requires |t| > 0 && Placed(t, hash, |t|) && ChainsUnique(t)
    requires IsRehashOf(t2, t) && Placed(t2, hash, |t2|)
    ensures k in TableMap(t2) <==> k in TableMap(t)
    ensures k in TableMap(t) ==> TableMap(t2)[k] == TableMap(t)[k]
  {
    var n := |t|;
    TableMapAt(t, hash, n, k);
    TableMapAt(t2, hash, 2 * n, k);
    var b := Bucket(hash(k), n);
    DoubledBucket(hash(k), n);
    assert HashedBy(t[b], hash);
    if Bucket(hash(k), 2 * n) == b {
      assert t2[b] == Select(t[b], b, 2 * n, true);
      SelectKeepsKey(t[b], hash, b, 2 * n, true, k);
    } else {
      assert t2[b + n] == Reverse(Select(t[b], b, 2 * n, false));
      SelectKeepsKey(t[b], hash, b, 2 * n, false, k);
      SelectUnique(t[b], b, 2 * n, false);
      ReverseMap(Select(t[b], b, 2 * n, false));
    }
  }

  /** xbt_dict_rehash: doubles the bucket count. Each cell of bucket `i`
      either stays there or moves to bucket `i + oldsize`; the entries, the
      count and the invariants are kept. */
  function Rehash<D>(d: Dict<D>): (d': Dict<D>)
    requires Valid(d)
    ensures Valid(d') && Model(d') == Model(d)
    ensures d'.count == d.count && d'.hash == d.hash
    ensures d'.tableSize + 1 == 2 * (d.tableSize + 1)
  {
    var oldsize := d.tableSize + 1;
    var r := RehashBuckets(d.table + Empties(oldsize), oldsize, 0, d.fill);
    RehashSpec(d);
    Dict(d.hash, r.0, 2 * oldsize - 1, d.count, r.1)
  }

  /** The rehash moves no cell anywhere but to its own bucket or that
      bucket's twin. */
  lemma RehashMovesToTwin<D>(d: Dict<D>)
    requires Valid(d)
    ensures forall i, e | 0 <= i <= d.tableSize && e in Rehash(d).table[i] :: e in d.table[i]
    ensures forall i, e | 0 <= i <= d.tableSize && e in Rehash(d).table[i + d.tableSize + 1] :: e in d.table[i]
  {
    RehashSpec(d);
  }

  /** The table grown to twice its buckets: the old chains, then empties. */
  lemma Grown<D>(t: Table<D>)
    ensures var g := t + Empties(|t|);
            && |g| == 2 * |t|
            && (forall j | 0 <= j < |t| :: g[j] == t[j])
            && (forall j | |t| <= j < 2 * |t| :: g[j] == [])
            && SumOver(g, Occupied) == SumOver(t, Occupied)
  {
    SumAppend(t, Empties(|t|), Occupied);
    SumEmpties(Empties<D>(|t|), Occupied);
  }

  /** Running the loop from bucket 0 over the grown table splits every
      bucket. */
  lemma RehashShape<D>(t: Table<D>, g: Table<D>, fill: int)
    requires |t| > 0 && |g| == 2 * |t|
    requires forall j | 0 <= j < |t| :: g[j] == t[j]
    requires forall j | |t| <= j < 2 * |t| :: g[j] == []
    requires fill == SumOver(g, Occupied)
    ensures var r := RehashBuckets(g, |t|, 0, fill);
            IsRehashOf(r.0, t) && r.1 == SumOver(r.0, Occupied)
  {
    RehashBucketsSpec(g, |t|, 0, fill);
  }

  lemma RehashSpec<D>(d: Dict<D>)
    requires Valid(d)
    ensures var n := d.tableSize + 1;
            var r := RehashBuckets(d.table + Empties(n), n, 0, d.fill);
            && IsPow2(|r.0|)
            && |r.0| == 2 * n
            && Placed(r.0, d.hash, |r.0|) && ChainsUnique(r.0)
            && TableMap(r.0) == TableMap(d.table)
            && r.1 == SumOver(r.0, Occupied) && d.count == SumOver(r.0, Len)
            && (forall i, e | 0 <= i <= d.tableSize && e in r.0[i] :: e in d.table[i])
            && (forall i, e | 0 <= i <= d.tableSize && e in r.0[i + d.tableSize + 1] :: e in d.table[i])
  {
    var n := d.tableSize + 1;
    var r := RehashBuckets(d.table + Empties(n), n, 0, d.fill);
    var g := d.table + Empties(n);
    Grown(d.table);
    RehashShape(d.table, g, d.fill);
    RehashKeepsView(d.table, r.0, d.hash);
    Pow2Double(n);
    TableMapSize(d.table, d.hash, n);
    TableMapSize(r.0, d.hash, 2 * n);
    forall i, e | 0 <= i <= d.tableSize && e in r.0[i + d.tableSize + 1] ensures e in d.table[i] {
      assert r.0[i + n] == Reverse(Select(d.table[i], i, 2 * n, false));
      InReverse(Select(d.table[i], i, 2 * n, false), e);
    }
  }

  // ---------------------------------------------------------------------
  // Insertion

  /** Replacing the bucket of `k` by a chain whose cells are hashed by
      `hash`, unique, and whose keys all select that bucket keeps the table
      placed with unique chains. */
  lemma ReplaceBucket<D>(t: Table<D>, hash: Key -> HashCode, b: nat, c: Chain<D>)
    requires |t| > 0 && Placed(t, hash, |t|) && ChainsUnique(t) && b < |t|
    requires UniqueKeys(c)
    requires forall e | e in c :: e.hashCode == hash(e.key) && Bucket(e.hashCode, |t|) == b
    ensures Placed(t[b := c], hash, |t|) && ChainsUnique(t[b := c])
  {
    TableMapUpdate(t, hash, b, c, []);
    var t' := t[b := c];
    forall i | 0 <= i < |t'| ensures UniqueKeys(t'[i]) {
      if i != b { assert t'[i] == t[i]; }
    }
  }

  /** The chain `ChainSet` builds keeps the cells of the key's bucket placed. */
  lemma StoreChain<D>(t: Table<D>, hash: Key -> HashCode, k: Key, v: D)
    requires |t| > 0 && Placed(t, hash, |t|) && ChainsUnique(t)
    ensures var b := Bucket(hash(k), |t|);
            var c := ChainSet(t[b], hash(k), k, v);
            && UniqueKeys(c) && ChainMap(c) == ChainMap(t[b])[k := v]
            && forall e | e in c :: e.hashCode == hash(e.key) && Bucket(e.hashCode, |t|) == b
  {
    var b := Bucket(hash(k), |t|);
    var c := ChainSet(t[b], hash(k), k, v);
    assert HashedBy(t[b], hash);
    ChainSetSpec(t[b], hash, k, v);
    forall e | e in c ensures e.hashCode == hash(e.key) && Bucket(e.hashCode, |t|) == b {
      if e in t[b] {}
    }
  }

  /** Storing `k -> v` in its bucket, before any rehash: the table stays
      placed with unique chains and its view gains `k -> v`. */
  lemma StoreView<D>(t: Table<D>, hash: Key -> HashCode, k: Key, v: D)
    requires |t| > 0 && Placed(t, hash, |t|) && ChainsUnique(t)
    ensures var b := Bucket(hash(k), |t|);
            var t' := t[b := ChainSet(t[b], hash(k), k, v)];
            && Placed(t', hash, |t'|) && ChainsUnique(t')
            && TableMap(t') == TableMap(t)[k := v]
  {
    var b := Bucket(hash(k), |t|);
    var c := ChainSet(t[b], hash(k), k, v);
    var t' := t[b := c];
    StoreChain(t, hash, k, v);
    ReplaceBucket(t, hash, b, c);
    forall k' ensures (k' in TableMap(t') <==> k' in TableMap(t)[k := v])
      && (k' in TableMap(t') ==> TableMap(t')[k'] == TableMap(t)[k := v][k'])
    {
      TableMapUpdate(t, hash, b, c, k');
      TableMapAt(t, hash, |t|, k');
    }
  }

  /** Storing `k -> v` adds a cell unless `k` was bound, and fills a bucket
      exactly when the key's bucket was empty. */
  lemma StoreCounts<D>(t: Table<D>, hash: Key -> HashCode, k: Key, v: D)
    requires |t| > 0 && Placed(t, hash, |t|) && ChainsUnique(t)
    ensures var b := Bucket(hash(k), |t|);
            var t' := t[b := ChainSet(t[b], hash(k), k, v)];
            && (Find(t[b], hash(k), k).Some? <==> k in TableMap(t))
            && (t[b] == [] ==> k !in TableMap(t))
            && SumOver(t', Len) == SumOver(t, Len) + (if k in TableMap(t) then 0 else 1)
            && SumOver(t', Occupied) == SumOver(t, Occupied) + (if t[b] == [] then 1 else 0)
  {
    var b := Bucket(hash(k), |t|);
    var c := ChainSet(t[b], hash(k), k, v);
    assert HashedBy(t[b], hash);
    ChainSetSpec(t[b], hash, k, v);
    FindIsLookup(t[b], hash, k);
    TableMapAt(t, hash, |t|, k);
    SumUpdate(t, b, c, Len);
    SumUpdate(t, b, c, Occupied);
  }

  /** The linking part of xbt_dict_set_ext, before the fill check: an
      existing cell only has its data overwritten; otherwise a new cell is
      linked at the tail of the key's bucket, and `fill` grows when that
      bucket was empty. */
  function Store<D>(d: Dict<D>, k: Key, v: D): (d': Dict<D>)
    requires Valid(d)
    ensures Valid(d') && d'.hash == d.hash && d'.tableSize == d.tableSize
    ensures Model(d') == Model(d)[k := v]
    ensures d'.count == if k in Model(d) then d.count else d.count + 1
    ensures d'.fill == if d.table[Bucket(d.hash(k), |d.table|)] == [] then d.fill + 1 else d.fill
  {
    var h := d.hash(k);
    var b := Bucket(h, d.tableSize + 1);
    var t := d.table[b := ChainSet(d.table[b], h, k, v)];
    StoreView(d.table, d.hash, k, v);
    StoreCounts(d.table, d.hash, k, v);
    if Find(d.table[b], h, k).Some? then
      d.(table := t)
    else if d.table[b] != [] then
      d.(table := t, count := d.count + 1)
    else
      d.(table := t, count := d.count + 1, fill := d.fill + 1)
  }

  /** The integer percentage `fill * 100 / (tableSize + 1)` of buckets in
      use exceeds 80, that is, it is at least 81. */
  predicate Crowded(fill: nat, tableSize: nat) {
    fill * 100 / (tableSize + 1) > MaxFillPercent
  }

  /** The percentage is truncated: in a table of 128 buckets, 103 non-empty
      buckets (80.5%) are not crowded, and 104 (81.25%) are. */
  lemma CrowdedThreshold()
    ensures !Crowded(103, 127) && Crowded(104, 127)
  {
  }

  /** xbt_dict_set / xbt_dict_set_ext: binds `k` to `v`, then rehashes when
      the key's bucket was empty and the integer percentage of buckets now
      in use exceeds 80. */
  function Set<D>(d: Dict<D>, k: Key, v: D): (d': Dict<D>)
    requires Valid(d)
    ensures Valid(d') && d'.hash == d.hash
    ensures Model(d') == Model(d)[k := v]
    ensures d'.count == if k in Model(d) then d.count else d.count + 1
  {
    var d1 := Store(d, k, v);
    if d.table[Bucket(d.hash(k), |d.table|)] == [] && Crowded(d1.fill, d1.tableSize)
    then Rehash(d1)
    else d1
  }

  /** The table only grows, by doubling, on an insertion into an empty
      bucket after which the integer percentage of buckets in use exceeds
      80. */
  lemma SetGrowth<D>(d: Dict<D>, k: Key, v: D)
    requires Valid(d)
    ensures var d' := Set(d, k, v);
            && (d'.tableSize == d.tableSize || d'.tableSize + 1 == 2 * (d.tableSize + 1))
            && (d'.tableSize != d.tableSize <==>
                  d.table[Bucket(d.hash(k), |d.table|)] == [] && Crowded(d.fill + 1, d.tableSize))
  {
    var d1 := Store(d, k, v);
    var empty := d.table[Bucket(d.hash(k), |d.table|)] == [];
    assert d1.tableSize == d.tableSize;
    assert empty ==> d1.fill == d.fill + 1;
    if empty && Crowded(d1.fill, d1.tableSize) {
      assert Set(d, k, v) == Rehash(d1);
    } else {
      assert Set(d, k, v) == d1;
    }
  }

  // ---------------------------------------------------------------------
  // Lookups

  /** xbt_dict_get_elm_or_null: the cell holding `k`, or null. */
  function GetElmOrNull<D>(d: Dict<D>, k: Key): (r: Option<Elm<D>>)
    requires Valid(d)
    ensures r.Some? <==> k in Model(d)
    ensures r.Some? ==> r.value.key == k && r.value.content == Model(d)[k]
    ensures r.Some? ==> r.value in d.table[Bucket(d.hash(k), |d.table|)]
  {
    var h := d.hash(k);
    var chain := d.table[Bucket(h, d.tableSize + 1)];
    assert HashedBy(chain, d.hash);
    FindIsLookup(chain, d.hash, k);
    TableMapAt(d.table, d.hash, |d.table|, k);
    match Find(chain, h, k)
    case Some(j) => Some(chain[j])
    case None => None
  }

  /** xbt_dict_get_elm: the cell holding `k`; raises not_found otherwise. */
  function GetElm<D>(d: Dict<D>, k: Key): (r: Result<Elm<D>, DictError>)
    requires Valid(d)
    ensures r.Failure? <==> k !in Model(d)
    ensures r.Failure? ==> r.error == NotFound(k)
    ensures r.Success? ==> r.value.key == k && r.value.content == Model(d)[k]
  {
    match GetElmOrNull(d, k)
    case None => Failure(NotFound(k))
    case Some(e) => Success(e)
  }

  /** xbt_dict_get / xbt_dict_get_ext: the data of `k`; raises not_found
      otherwise. */
  function Get<D>(d: Dict<D>, k: Key): (r: Result<D, DictError>)
    requires Valid(d)
    ensures r.Failure? <==> k !in Model(d)
    ensures r.Failure? ==> r.error == NotFound(k)
    ensures r.Success? ==> r.value == Model(d)[k]
  {
    match GetElm(d, k)
    case Failure(err) => Failure(err)
    case Success(e) => Success(e.content)
  }

  /** xbt_dict_get_or_null / xbt_dict_get_or_null_ext: the data of `k`, or
      null. */
  function GetOrNull<D>(d: Dict<D>, k: Key): (r: Option<D>)
    requires Valid(d)
    ensures r == if k in Model(d) then Some(Model(d)[k]) else None
  {
    match GetElmOrNull(d, k)
    case None => None
    case Some(e) => Some(e.content)
  }

  /** xbt_dict_get_key: scans the buckets in index order, each chain from its
      head, for the first cell whose data is `data`, and returns its key. */
  method GetKey<D(==)>(d: Dict<D>, data: D) returns (r: Option<Key>)
    requires Valid(d)
    ensures r.Some? ==> r.value in Model(d) && Model(d)[r.value] == data
    ensures r.None? ==> data !in Model(d).Values
    ensures r.Some? ==> exists i, j | 0 <= i < |d.table| && 0 <= j < |d.table[i]| ::
                          && d.table[i][j].key == r.value && d.table[i][j].content == data
                          && (forall i', e | 0 <= i' < i && e in d.table[i'] :: e.content != data)
                          && (forall j' | 0 <= j' < j :: d.table[i][j'].content != data)
  {
    var i := 0;
    while i <= d.tableSize
      invariant 0 <= i <= |d.table|
      invariant forall i', e | 0 <= i' < i && e in d.table[i'] :: e.content != data
    {
      var chain := d.table[i];
      var j := 0;
      while j < |chain|
        invariant 0 <= j <= |chain|
        invariant forall j' | 0 <= j' < j :: chain[j'].content != data
      {
        if chain[j].content == data {
          CellInView(d.table, d.hash, i, chain[j]);
          return Some(chain[j].key);
        }
        j := j + 1;
      }
      i := i + 1;
    }
    forall k | k in Model(d) ensures Model(d)[k] != data {
      ViewHasCell(d.table, d.hash, k);
    }
    return None;
  }

  // ---------------------------------------------------------------------
  // Removal

  /** Unlinking the cell of `k` from its bucket: the table stays placed with
      unique chains and its view loses `k`. */
  lemma UnlinkView<D>(t: Table<D>, hash: Key -> HashCode, k: Key, j: nat)
    requires |t| > 0 && Placed(t, hash, |t|) && ChainsUnique(t)
    requires var b := Bucket(hash(k), |t|);
             Find(t[b], hash(k), k) == Some(j)
    ensures var b := Bucket(hash(k), |t|);
            var t' := t[b := ChainRemove(t[b], j)];
            && Placed(t', hash, |t'|) && ChainsUnique(t')
            && TableMap(t') == TableMap(t) - {k}
  {
    var b := Bucket(hash(k), |t|);
    var c := ChainRemove(t[b], j);
    var t' := t[b := c];
    assert t[b][j].key == k;
    ChainRemoveCells(t[b], j);
    ChainRemoveUnique(t[b], j);
    ChainRemoveMap(t[b], j);
    forall e | e in c ensures e.hashCode == hash(e.key) && Bucket(e.hashCode, |t|) == b {
      assert e in t[b];
    }
    ReplaceBucket(t, hash, b, c);
    forall k' ensures (k' in TableMap(t') <==> k' in TableMap(t) - {k})
      && (k' in TableMap(t') ==> TableMap(t')[k'] == TableMap(t)[k'])
    {
      TableMapUpdate(t, hash, b, c, k');
      TableMapAt(t, hash, |t|, k');
    }
  }

  /** Unlinking removes one cell, and empties a bucket exactly when the cell
      was the bucket's only one. */
  lemma UnlinkCounts<D>(t: Table<D>, hash: Key -> HashCode, k: Key, j: nat)
    requires |t| > 0 && Placed(t, hash, |t|)
    requires var b := Bucket(hash(k), |t|);
             Find(t[b], hash(k), k) == Some(j)
    ensures var b := Bucket(hash(k), |t|);
            var c := ChainRemove(t[b], j);
            var t' := t[b := c];
            && SumOver(t, Len) >= 1 && SumOver(t', Len) == SumOver(t, Len) - 1
            && (c == [] ==> SumOver(t, Occupied) >= 1 && SumOver(t', Occupied) == SumOver(t, Occupied) - 1)
            && (c != [] ==> SumOver(t', Occupied) == SumOver(t, Occupied))
  {
    var b := Bucket(hash(k), |t|);
    var c := ChainRemove(t[b], j);
    ChainRemoveCells(t[b], j);
    SumUpdate(t, b, c, Len);
    SumUpdate(t, b, c, Occupied);
  }

  /** xbt_dict_remove / xbt_dict_remove_ext: unlinks the cell of `k`,
      decrementing `count`, and `fill` when its bucket became empty; raises
      not_found when `k` is absent. */
  function Remove<D>(d: Dict<D>, k: Key): (r: Result<Dict<D>, DictError>)
    requires Valid(d)
    ensures r.Failure? <==> k !in Model(d)
    ensures r.Failure? ==> r.error == NotFound(k)
    ensures r.Success? ==> Valid(r.value) && Model(r.value) == Model(d) - {k}
    ensures r.Success? ==> r.value.count == d.count - 1 && r.value.tableSize == d.tableSize
  {
    var h := d.hash(k);
    var b := Bucket(h, d.tableSize + 1);
    assert HashedBy(d.table[b], d.hash);
    FindIsLookup(d.table[b], d.hash, k);
    TableMapAt(d.table, d.hash, |d.table|, k);
    match Find(d.table[b], h, k)
    case None => Failure(NotFound(k))
    case Some(j) =>
      var c := ChainRemove(d.table[b], j);
      UnlinkView(d.table, d.hash, k, j);
      UnlinkCounts(d.table, d.hash, k, j);
      Success(d.(table := d.table[b := c], count := d.count - 1,
                 fill := if c == [] then d.fill - 1 else d.fill))
  }

  // ---------------------------------------------------------------------
  // Reset

  lemma {:induction false} NoCellsMeansEmpty<D>(t: Table<D>)
    requires SumOver(t, Len) == 0
    ensures forall i | 0 <= i < |t| :: t[i] == []
  {
    if |t| > 0 {
      NoCellsMeansEmpty(t[..|t| - 1]);
      assert forall i | 0 <= i < |t| - 1 :: t[..|t| - 1][i] == t[i];
    }
  }

  /** xbt_dict_reset: drops every cell but keeps the table size. A
      dictionary without entries is returned as it is. */
  function Reset<D>(d: Dict<D>): (d': Dict<D>)
    requires Valid(d)
    ensures Valid(d') && Model(d') == map[]
    ensures d'.count == 0 && d'.fill == 0
    ensures forall i | 0 <= i < |d'.table| :: d'.table[i] == []
    ensures d'.tableSize == d.tableSize && d'.hash == d.hash
  {
    if d.count == 0 then
      NoCellsMeansEmpty(d.table);
      SumEmpties(d.table, Occupied);
      EmptiesView(d.table);
      d
    else
      var t: Table<D> := Empties(d.tableSize + 1);
      SumEmpties(t, Len);
      SumEmpties(t, Occupied);
      EmptiesView(t);
      d.(table := t, count := 0, fill := 0)
  }

  // ---------------------------------------------------------------------
  // How the operations combine

  /** A lookup right after a store finds the stored data; other keys read
      what they read before. */
  lemma GetAfterSet<D>(d: Dict<D>, k: Key, v: D, k': Key)
    requires Valid(d)
    ensures Get(Set(d, k, v), k) == Success(v)
    ensures k' != k ==> GetOrNull(Set(d, k, v), k') == GetOrNull(d, k')
  {
  }

  /** Storing a fresh key and removing it again gives back the same entries
      and the same count. */
  lemma RemoveAfterSet<D>(d: Dict<D>, k: Key, v: D)
    requires Valid(d) && k !in Model(d)
    ensures Remove(Set(d, k, v), k).Success?
    ensures Model(Remove(Set(d, k, v), k).value) == Model(d)
    ensures Remove(Set(d, k, v), k).value.count == d.count
  {
    var d1 := Set(d, k, v);
    assert Model(d1) == Model(d)[k := v] && d1.count == d.count + 1;
    var r := Remove(d1, k);
    assert r.Success? && Model(r.value) == Model(d1) - {k};
    assert Model(d)[k := v] - {k} == Model(d);
  }

  /** After a removal the key is gone: a second removal raises not_found. */
  lemma RemoveTwice<D>(d: Dict<D>, k: Key)
    requires Valid(d) && k in Model(d)
    ensures Remove(d, k).Success?
    ensures GetOrNull(Remove(d, k).value, k) == None
    ensures Remove(Remove(d, k).value, k) == Failure(NotFound(k))
  {
  }
}

=== FILE: dict_chain.dfy ===
/** Bucket chains of the xbt dictionary. Every bucket of the table is a singly
    linked list of cells; a chain is modelled as the sequence of its cells read
    from the head. */
module DictChain {
  import opened Wrappers

  type Key = string

  /** The `unsigned int` hash code the dictionary stores in every cell. */
  type HashCode = h: nat | h < 0x1_0000_0000

  /** One cell: the key, the hash code computed when it was inserted, and the
      stored data. */
  datatype Elm<D> = Elm(key: Key, hashCode: HashCode, content: D)

  type Chain<D> = seq<Elm<D>>

  /** The test that stops every chain walk: equal hash codes and equal keys. */
  predicate Matches<D>(e: Elm<D>, h: HashCode, k: Key) {
    e.hashCode == h && e.key == k
  }

  /** Every cell caches the hash code of its own key. */
  ghost predicate HashedBy<D>(c: Chain<D>, hash: Key -> HashCode) {
    forall e | e in c :: e.hashCode == hash(e.key)
  }

  /** No key occurs twice in a chain. */
  ghost predicate UniqueKeys<D>(c: Chain<D>) {
    forall i, j | 0 <= i < j < |c| :: c[i].key != c[j].key
  }

  /** The key-to-data view of a chain. A walk from the head stops at the first
      cell holding a key, so that cell's data wins. */
  function ChainMap<D>(c: Chain<D>): map<Key, D> {
    if |c| == 0 then map[] else ChainMap(c[1..])[c[0].key := c[0].content]
  }

  /** The walk shared by lookup, insertion and removal: the position of the
      first cell that matches `h` and `k`, if there is one. */
  function Find<D>(c: Chain<D>, h: HashCode, k: Key): (r: Option<nat>)
    ensures r.Some? ==> r.value < |c| && Matches(c[r.value], h, k)
    ensures r.Some? ==> forall j | 0 <= j < r.value :: !Matches(c[j], h, k)
    ensures r.None? ==> forall e | e in c :: !Matches(e, h, k)
  {
    if |c| == 0 then None
    else if Matches(c[0], h, k) then Some(0)
    else
      assert c == [c[0]] + c[1..];
      match Find(c[1..], h, k)
      case None => None
      case Some(j) => Some(j + 1)
  }

  /** Insertion into one chain: the data of the first matching cell is
      overwritten, otherwise a new cell is linked after the tail. */
  function ChainSet<D>(c: Chain<D>, h: HashCode, k: Key, v: D): (r: Chain<D>)
    ensures Find(r, h, k).Some? && r[Find(r, h, k).value].content == v
    ensures |r| == if Find(c, h, k).None? then |c| + 1 else |c|
  {
    match Find(c, h, k)
    case Some(j) =>
      var r := c[j := c[j].(content := v)];
      assert Matches(r[j], h, k) && forall i | 0 <= i < j :: r[i] == c[i];
      r
    case None =>
      var r := c + [Elm(k, h, v)];
      assert Matches(r[|c|], h, k) && forall i | 0 <= i < |c| :: r[i] == c[i];
      r
  }

  /** Unlinks the cell at position `j`. */
  function ChainRemove<D>(c: Chain<D>, j: nat): Chain<D>
    requires j < |c|
  {
    c[..j] + c[j + 1..]
  }

  /** The cells of `c` whose hash code does (`keep`) or does not (`!keep`)
      select bucket `i` of a table of `size` buckets, in chain order. */
  function Select<D>(c: Chain<D>, i: nat, size: nat, keep: bool): (r: Chain<D>)
    requires size > 0
    ensures forall e | e in r :: e in c && (e.hashCode % size == i) == keep
    ensures forall e | e in c && (e.hashCode % size == i) == keep :: e in r
    ensures |r| <= |c|
  {
    if |c| == 0 then []
    else
      assert c == [c[0]] + c[1..];
      if (c[0].hashCode % size == i) == keep then [c[0]] + Select(c[1..], i, size, keep)
      else Select(c[1..], i, size, keep)
  }

  function Reverse<D>(c: Chain<D>): (r: Chain<D>)
    ensures |r| == |c|
    ensures forall j | 0 <= j < |c| :: r[j] == c[|c| - 1 - j]
  {
    if |c| == 0 then [] else Reverse(c[1..]) + [c[0]]
  }

  /** The inner loop of the rehash over one bucket `i`: a cell whose hash code
      still selects `i` in the table of `size` buckets stays where it is, any
      other cell is unlinked and pushed on the head of the twin chain. */
  function SplitChain<D>(c: Chain<D>, i: nat, size: nat, stay: Chain<D>, twin: Chain<D>)
    : (r: (Chain<D>, Chain<D>))
    requires size > 0
    ensures r.0 == stay + Select(c, i, size, true)
    ensures r.1 == Reverse(Select(c, i, size, false)) + twin
    decreases |c|
  {
    if |c| == 0 then (stay, twin)
    else if c[0].hashCode % size != i then
      assert Select(c, i, size, false) == [c[0]] + Select(c[1..], i, size, false);
      assert ([c[0]] + Select(c[1..], i, size, false))[1..] == Select(c[1..], i, size, false);
      SplitChain(c[1..], i, size, stay, [c[0]] + twin)
    else
      assert stay + [c[0]] + Select(c[1..], i, size, true) == stay + Select(c, i, size, true);
      SplitChain(c[1..], i, size, stay + [c[0]], twin)
  }

  // ---------------------------------------------------------------------
  // Lemmas about the key-to-data view

  lemma UniqueTail<D>(c: Chain<D>)
    requires |c| > 0 && UniqueKeys(c)
    ensures UniqueKeys(c[1..])
  {
    forall i, j | 0 <= i < j < |c[1..]|
      ensures c[1..][i].key != c[1..][j].key
    {
      assert c[1..][i] == c[i + 1] && c[1..][j] == c[j + 1];
    }
  }

  /** A key is in the view exactly when some cell holds it. */
  lemma {:induction false} ChainMapKeys<D>(c: Chain<D>, k: Key)
    ensures k in ChainMap(c) <==> exists e :: e in c && e.key == k
  {
    if |c| > 0 {
      ChainMapKeys(c[1..], k);
      assert c == [c[0]] + c[1..];
      if k in ChainMap(c[1..]) {
        var e :| e in c[1..] && e.key == k;
        assert e in c;
      }
      if (exists e :: e in c && e.key == k) && k != c[0].key {
        var e :| e in c && e.key == k;
        assert e in c[1..];
      }
    }
  }

  /** With unique keys, every cell's data is what the view maps its key to. */
  lemma {:induction false} ChainMapValue<D>(c: Chain<D>, e: Elm<D>)
    requires UniqueKeys(c) && e in c
    ensures e.key in ChainMap(c) && ChainMap(c)[e.key] == e.content
  {
    if e != c[0] {
      var i :| 0 <= i < |c| && c[i] == e;
      assert i > 0;
      assert c[1..][i - 1] == e;
      assert e.key != c[0].key;
      UniqueTail(c);
      ChainMapValue(c[1..], e);
    }
  }

  /** With unique keys, the head's key does not occur further down. */
  lemma HeadKeyFresh<D>(c: Chain<D>)
    requires |c| > 0 && UniqueKeys(c)
    ensures c[0].key !in ChainMap(c[1..])
  {
    forall e | e in c[1..] ensures e.key != c[0].key {
      var j :| 0 <= j < |c[1..]| && c[1..][j] == e;
      assert c[j + 1] == e;
    }
    ChainMapKeys(c[1..], c[0].key);
  }

  /** With unique keys, the view has one entry per cell. */
  lemma {:induction false} ChainMapSize<D>(c: Chain<D>)
    requires UniqueKeys(c)
    ensures |ChainMap(c)| == |c|
  {
    if |c| > 0 {
      UniqueTail(c);
      ChainMapSize(c[1..]);
      HeadKeyFresh(c);
    }
  }

  /** On a chain whose cells cache their keys' hash codes, the walk finds the
      key exactly when the view holds it, and returns the view's data. */
  lemma {:induction false} FindIsLookup<D>(c: Chain<D>, hash: Key -> HashCode, k: Key)
    requires HashedBy(c, hash)
    ensures Find(c, hash(k), k).Some? <==> k in ChainMap(c)
    ensures Find(c, hash(k), k).Some? ==> ChainMap(c)[k] == c[Find(c, hash(k), k).value].content
  {
    if |c| > 0 {
      assert c == [c[0]] + c[1..];
      assert HashedBy(c[1..], hash);
      FindIsLookup(c[1..], hash, k);
    }
  }

  lemma {:induction false} ChainMapReplace<D>(c: Chain<D>, j: nat, v: D)
    requires j < |c|
    requires forall i | 0 <= i < j :: c[i].key != c[j].key
    ensures ChainMap(c[j := c[j].(content := v)]) == ChainMap(c)[c[j].key := v]
  {
    var c' := c[j := c[j].(content := v)];
    if j > 0 {
      assert c'[1..] == c[1..][j - 1 := c[1..][j - 1].(content := v)];
      ChainMapReplace(c[1..], j - 1, v);
    } else {
      assert c'[1..] == c[1..];
    }
  }

  lemma {:induction false} ChainMapAppend<D>(c: Chain<D>, e: Elm<D>)
    requires forall x | x in c :: x.key != e.key
    ensures ChainMap(c + [e]) == ChainMap(c)[e.key := e.content]
  {
    if |c| > 0 {
      assert (c + [e])[1..] == c[1..] + [e];
      assert c[0] in c;
      ChainMapAppend(c[1..], e);
    }
  }

  /** Insertion into a chain updates its view at `k` and nothing else, keeps
      the chain's invariants, and adds a cell exactly when `k` was absent. */
  lemma ChainSetSpec<D>(c: Chain<D>, hash: Key -> HashCode, k: Key, v: D)
    requires HashedBy(c, hash) && UniqueKeys(c)
    ensures ChainMap(ChainSet(c, hash(k), k, v)) == ChainMap(c)[k := v]
    ensures HashedBy(ChainSet(c, hash(k), k, v), hash)
    ensures UniqueKeys(ChainSet(c, hash(k), k, v))
    ensures |ChainSet(c, hash(k), k, v)| == if k in ChainMap(c) then |c| else |c| + 1
    ensures forall e | e in ChainSet(c, hash(k), k, v) :: e in c || e.key == k
  {
    var c' := ChainSet(c, hash(k), k, v);
    FindIsLookup(c, hash, k);
    match Find(c, hash(k), k)
    case Some(j) =>
      ChainMapReplace(c, j, v);
      forall e | e in c' ensures e.hashCode == hash(e.key) && (e in c || e.key == k) {
        var i :| 0 <= i < |c'| && c'[i] == e;
        if i != j { assert e == c[i]; }
      }
    case None =>
      forall x | x in c ensures x.key != k {
        assert !Matches(x, hash(k), k);
      }
      ChainMapAppend(c, Elm(k, hash(k), v));
      assert c' == c + [Elm(k, hash(k), v)];
      forall i, j | 0 <= i < j < |c'| ensures c'[i].key != c'[j].key {
        if j == |c| { assert c'[i] == c[i]; assert c[i] in c; }
      }
  }

  /** Unlinking a cell keeps the other cells, in order. */
  lemma ChainRemoveCells<D>(c: Chain<D>, j: nat)
    requires j < |c|
    ensures |ChainRemove(c, j)| == |c| - 1
    ensures forall a | 0 <= a < |c| - 1 :: ChainRemove(c, j)[a] == c[if a < j then a else a + 1]
    ensures forall e | e in ChainRemove(c, j) :: e in c
  {
    var c' := ChainRemove(c, j);
    forall e | e in c' ensures e in c {
      var a :| 0 <= a < |c'| && c'[a] == e;
      assert c[if a < j then a else a + 1] == e;
    }
  }

  lemma ChainRemoveUnique<D>(c: Chain<D>, j: nat)
    requires j < |c| && UniqueKeys(c)
    ensures UniqueKeys(ChainRemove(c, j))
  {
    var c' := ChainRemove(c, j);
    ChainRemoveCells(c, j);
    forall a, b | 0 <= a < b < |c'| ensures c'[a].key != c'[b].key {
      var a' := if a < j then a else a + 1;
      var b' := if b < j then b else b + 1;
      assert c'[a] == c[a'] && c'[b] == c[b'];
    }
  }

  /** Unlinking a cell removes exactly its key from the view. */
  lemma {:induction false} ChainRemoveMap<D>(c: Chain<D>, j: nat)
    requires j < |c| && UniqueKeys(c)
    ensures ChainMap(ChainRemove(c, j)) == ChainMap(c) - {c[j].key}
  {
    UniqueTail(c);
    if j == 0 {
      assert ChainRemove(c, j) == c[1..];
      HeadKeyFresh(c);
    } else {
      ChainRemoveMap(c[1..], j - 1);
      assert ChainRemove(c, j) == [c[0]] + ChainRemove(c[1..], j - 1);
      assert ChainRemove(c, j)[1..] == ChainRemove(c[1..], j - 1);
      assert c[0].key != c[j].key;
      assert c[1..][j - 1] == c[j];
    }
  }

  /** Selecting by bucket keeps a key whose own bucket agrees with `keep`,
      together with its data. */
  lemma {:induction false} SelectKeepsKey<D>(c: Chain<D>, hash: Key -> HashCode, i: nat, size: nat,
                                              keep: bool, k: Key)
    requires size > 0 && HashedBy(c, hash)
    requires (hash(k) % size == i) == keep
    ensures k in ChainMap(Select(c, i, size, keep)) <==> k in ChainMap(c)
    ensures k in ChainMap(c) ==> ChainMap(Select(c, i, size, keep))[k] == ChainMap(c)[k]
  {
    if |c| > 0 {
      assert c == [c[0]] + c[1..];
      assert HashedBy(c[1..], hash);
      SelectKeepsKey(c[1..], hash, i, size, keep, k);
      if (c[0].hashCode % size == i) == keep {
        assert ([c[0]] + Select(c[1..], i, size, keep))[1..] == Select(c[1..], i, size, keep);
      }
    }
  }

  lemma {:induction false} SelectUnique<D>(c: Chain<D>, i: nat, size: nat, keep: bool)
    requires size > 0 && UniqueKeys(c)
    ensures UniqueKeys(Select(c, i, size, keep))
  {
    if |c| > 0 {
      UniqueTail(c);
      SelectUnique(c[1..], i, size, keep);
      var s := Select(c[1..], i, size, keep);
      if (c[0].hashCode % size == i) == keep {
        var r := [c[0]] + s;
        forall a, b | 0 <= a < b < |r| ensures r[a].key != r[b].key {
          if a == 0 {
            assert r[b] == s[b - 1] && s[b - 1] in c[1..];
            var m :| 0 <= m < |c[1..]| && c[1..][m] == r[b];
            assert c[m + 1] == r[b];
          } else {
            assert r[a] == s[a - 1] && r[b] == s[b - 1];
          }
        }
      }
    }
  }

  /** With unique keys, reversing a chain does not change its view. */
  lemma ReverseMap<D>(c: Chain<D>)
    requires UniqueKeys(c)
    ensures UniqueKeys(Reverse(c))
    ensures ChainMap(Reverse(c)) == ChainMap(c)
  {
    var r := Reverse(c);
    forall a, b | 0 <= a < b < |r| ensures r[a].key != r[b].key {
      assert r[a] == c[|c| - 1 - a] && r[b] == c[|c| - 1 - b];
    }
    forall e | e in c ensures e in r {
      var i :| 0 <= i < |c| && c[i] == e;
      assert r[|c| - 1 - i] == e;
    }
    forall e | e in r ensures e in c {
      var i :| 0 <= i < |r| && r[i] == e;
      assert c[|c| - 1 - i] == e;
    }
    forall k ensures k in ChainMap(r) <==> k in ChainMap(c) {
      ChainMapKeys(r, k);
      ChainMapKeys(c, k);
    }
    forall k | k in ChainMap(c) ensures ChainMap(r)[k] == ChainMap(c)[k] {
      ChainMapKeys(c, k);
      var e :| e in c && e.key == k;
      ChainMapValue(c, e);
      ChainMapValue(r, e);
    }
  }
}

=== FILE: dict_table.dfy ===
/** The bucket table of the xbt dictionary: `table_size + 1` chains, where
    `table_size` doubles as the bit mask that selects a key's bucket. */
module DictTable {
  import opened DictChain

  type Table<D> = seq<Chain<D>>

  /** `n` is a power of two, so `n - 1` is an all-ones bit mask. */
  predicate IsPow2(n: nat) {
    if n <= 1 then n == 1 else n % 2 == 0 && IsPow2(n / 2)
  }

  lemma Pow2Double(n: nat)
    requires IsPow2(n)
    ensures IsPow2(2 * n)
  {
    assert (2 * n) / 2 == n;
  }

  /** The bucket of hash code `h` in a table of `size` buckets. The source
      computes `h & table_size`; with `size == table_size + 1` a power of
      two this is the remainder of `h` by `size`. */
  function Bucket(h: HashCode, size: nat): (b: nat)
    requires size > 0
    ensures b < size
  {
    h % size
  }

  lemma MulDistrib(n: int, a: int, b: int)
    ensures n * a - n * b == n * (a - b)
  {
  }

  lemma MulAtLeast(n: nat, d: int)
    requires n > 0 && d >= 1
    ensures n * d >= n
  {
  }

  /** Quotient and remainder are unique. */
  lemma ModUnique(h: nat, n: nat, q: int, r: int)
    requires n > 0 && 0 <= r < n && h == n * q + r
    ensures h % n == r
  {
    var q', r' := h / n, h % n;
    assert n * q' + r' == n * q + r;
    MulDistrib(n, q', q);
    MulDistrib(n, q, q');
    if q < q' {
      MulAtLeast(n, q' - q);
    } else if q > q' {
      MulAtLeast(n, q - q');
    }
  }

  /** Doubling the table: a hash code that selected bucket `b` of `n` buckets
      selects either `b` or `b + n` of `2 * n` buckets. */
  lemma DoubledBucket(h: HashCode, n: nat)
    requires n > 0
    ensures Bucket(h, 2 * n) == Bucket(h, n) || Bucket(h, 2 * n) == Bucket(h, n) + n
  {
    var q, r := h / (2 * n), h % (2 * n);
    assert h == (2 * n) * q + r;
    if r < n {
      assert h == n * (2 * q) + r;
      ModUnique(h, n, 2 * q, r);
    } else {
      assert h == n * (2 * q + 1) + (r - n);
      ModUnique(h, n, 2 * q + 1, r - n);
    }
  }

  /** Every cell caches its key's hash code and sits in the bucket that hash
      code selects in a table of `size` buckets. */
  ghost predicate Placed<D>(t: Table<D>, hash: Key -> HashCode, size: nat)
    requires size > 0
  {
    forall i, e | 0 <= i < |t| && e in t[i] :: e.hashCode == hash(e.key) && Bucket(e.hashCode, size) == i
  }

  ghost predicate ChainsUnique<D>(t: Table<D>) {
    forall i | 0 <= i < |t| :: UniqueKeys(t[i])
  }

  /** The key-to-data view of a whole table: the union of its chains' views. */
  function TableMap<D>(t: Table<D>): map<Key, D> {
    if |t| == 0 then map[] else TableMap(t[..|t| - 1]) + ChainMap(t[|t| - 1])
  }

  /** In a placed table a key can only live in its own bucket, and the table's
      view agrees there with that chain's view. */
  lemma {:induction false} TableMapAt<D>(t: Table<D>, hash: Key -> HashCode, size: nat, k: Key)
    requires size > 0 && Placed(t, hash, size)
    ensures k in TableMap(t) <==> Bucket(hash(k), size) < |t| && k in ChainMap(t[Bucket(hash(k), size)])
    ensures k in TableMap(t) ==> TableMap(t)[k] == ChainMap(t[Bucket(hash(k), size)])[k]
  {
    if |t| > 0 {
      var last := |t| - 1;
      var pre := t[..last];
      assert forall i | 0 <= i < |pre| :: pre[i] == t[i];
      assert Placed(pre, hash, size);
      TableMapAt(pre, hash, size, k);
      ChainMapKeys(t[last], k);
      if k in ChainMap(t[last]) {
        var e :| e in t[last] && e.key == k;
        assert Bucket(hash(k), size) == last;
      }
    }
  }

  lemma DisjointUnionSize<D>(m1: map<Key, D>, m2: map<Key, D>)
    requires m1.Keys !! m2.Keys
    ensures |m1 + m2| == |m1| + |m2|
  {
    assert (m1 + m2).Keys == m1.Keys + m2.Keys;
  }

  /** The last chain of a placed table shares no key with the chains before it. */
  lemma LastChainDisjoint<D>(t: Table<D>, hash: Key -> HashCode, size: nat)
    requires size > 0 && |t| > 0 && Placed(t, hash, size)
    ensures TableMap(t[..|t| - 1]).Keys !! ChainMap(t[|t| - 1]).Keys
  {
    var pre := t[..|t| - 1];
    assert forall i | 0 <= i < |pre| :: pre[i] == t[i];
    assert Placed(pre, hash, size);
    forall k | k in ChainMap(t[|t| - 1]) ensures k !in TableMap(pre) {
      ChainMapKeys(t[|t| - 1], k);
      var e :| e in t[|t| - 1] && e.key == k;
      assert Bucket(hash(k), size) == |t| - 1;
      TableMapAt(pre, hash, size, k);
    }
  }

  /** A placed table with unique chains has one view entry per cell. */
  lemma {:induction false} TableMapSize<D>(t: Table<D>, hash: Key -> HashCode, size: nat)
    requires size > 0 && Placed(t, hash, size) && ChainsUnique(t)
    ensures |TableMap(t)| == SumOver(t, Len)
  {
    if |t| > 0 {
      var last := |t| - 1;
      var pre := t[..last];
      assert forall i | 0 <= i < |pre| :: pre[i] == t[i];
      assert Placed(pre, hash, size) && ChainsUnique(pre);
      TableMapSize(pre, hash, size);
      ChainMapSize(t[last]);
      LastChainDisjoint(t, hash, size);
      DisjointUnionSize(TableMap(pre), ChainMap(t[last]));
    }
  }

  /** Replacing bucket `b` by a chain placed in `b`: keys of other buckets
      keep their entries, and keys of bucket `b` read the new chain. */
  lemma TableMapUpdate<D>(t: Table<D>, hash: Key -> HashCode, b: nat, c: Chain<D>, k: Key)
    requires |t| > 0 && Placed(t, hash, |t|) && b < |t|
    requires forall e | e in c :: e.hashCode == hash(e.key) && Bucket(e.hashCode, |t|) == b
    ensures Placed(t[b := c], hash, |t|)
    ensures Bucket(hash(k), |t|) != b ==>
              (k in TableMap(t[b := c]) <==> k in TableMap(t))
              && (k in TableMap(t) ==> TableMap(t[b := c])[k] == TableMap(t)[k])
    ensures Bucket(hash(k), |t|) == b ==>
              (k in TableMap(t[b := c]) <==> k in ChainMap(c))
              && (k in ChainMap(c) ==> TableMap(t[b := c])[k] == ChainMap(c)[k])
  {
    var t' := t[b := c];
    assert Placed(t', hash, |t|) by {
      forall i, e: Elm<D> | 0 <= i < |t'| && e in t'[i]
        ensures e.hashCode == hash(e.key) && Bucket(e.hashCode, |t|) == i
      {
        if i != b { assert e in t[i]; }
      }
    }
    TableMapAt(t, hash, |t|, k);
    TableMapAt(t', hash, |t|, k);
  }

  /** A cell of a placed table with unique chains is in the view with its data. */
  lemma CellInView<D>(t: Table<D>, hash: Key -> HashCode, i: nat, e: Elm<D>)
    requires |t| > 0 && Placed(t, hash, |t|) && ChainsUnique(t)
    requires i < |t| && e in t[i]
    ensures e.key in TableMap(t) && TableMap(t)[e.key] == e.content
  {
    ChainMapValue(t[i], e);
    TableMapAt(t, hash, |t|, e.key);
  }

  /** Every entry of the view of a placed table with unique chains is held by
      a cell of the key's bucket. */
  lemma ViewHasCell<D>(t: Table<D>, hash: Key -> HashCode, k: Key)
    requires |t| > 0 && Placed(t, hash, |t|) && ChainsUnique(t)
    requires k in TableMap(t)
    ensures exists e :: e in t[Bucket(hash(k), |t|)] && e.key == k && e.content == TableMap(t)[k]
  {
    var b := Bucket(hash(k), |t|);
    TableMapAt(t, hash, |t|, k);
    ChainMapKeys(t[b], k);
    var e :| e in t[b] && e.key == k;
    ChainMapValue(t[b], e);
  }

  // ---------------------------------------------------------------------
  // Counting over buckets: `count` is the sum of the chain lengths and
  // `fill` the number of non-empty chains.

  function Len<D>(c: Chain<D>): nat {
    |c|
  }

  function Occupied<D>(c: Chain<D>): nat {
    if |c| == 0 then 0 else 1
  }

  function SumOver<D>(t: Table<D>, f: Chain<D> -> nat): nat {
    if |t| == 0 then 0 else SumOver(t[..|t| - 1], f) + f(t[|t| - 1])
  }

  /** Replacing one chain changes the sum by the difference of its terms. */
  lemma {:induction false} SumUpdate<D>(t: Table<D>, i: nat, c: Chain<D>, f: Chain<D> -> nat)
    requires i < |t|
    ensures SumOver(t[i := c], f) == SumOver(t, f) - f(t[i]) + f(c)
  {
    var last := |t| - 1;
    if i < last {
      assert t[i := c][..last] == t[..last][i := c];
      SumUpdate(t[..last], i, c, f);
    } else {
      assert t[i := c][..last] == t[..last];
    }
  }

  lemma {:induction false} SumAppend<D>(a: Table<D>, b: Table<D>, f: Chain<D> -> nat)
    ensures SumOver(a + b, f) == SumOver(a, f) + SumOver(b, f)
  {
    if |b| > 0 {
      assert (a + b)[..|a + b| - 1] == a + b[..|b| - 1];
      SumAppend(a, b[..|b| - 1], f);
    } else {
      assert a + b == a;
    }
  }

  /** `n` empty buckets. */
  function Empties<D>(n: nat): (t: Table<D>)
    ensures |t| == n && forall i | 0 <= i < n :: t[i] == []
  {
    seq(n, _ => [])
  }

  lemma {:induction false} SumEmpties<D>(t: Table<D>, f: Chain<D> -> nat)
    requires f([]) == 0 && forall i | 0 <= i < |t| :: t[i] == []
    ensures SumOver(t, f) == 0
  {
    if |t| > 0 {
      SumEmpties(t[..|t| - 1], f);
    }
  }

  lemma {:induction false} EmptiesView<D>(t: Table<D>)
    requires forall i | 0 <= i < |t| :: t[i] == []
    ensures TableMap(t) == map[]
  {
    if |t| > 0 {
      EmptiesView(t[..|t| - 1]);
    }
  }
}

=== FILE: mc_base.dfy ===
/** The request oracles the model checker consults on the application side
    (src/mc/mc_base.cpp): which pending requests can fire without blocking,
    which ones the exploration sees at all, and the random-draw handler that
    makes recorded executions replayable. */
module McBase {
  import opened Wrappers
  import opened McSimcall

  // ---------------------------------------------------------------------
  // Enabledness

  /** The loop of the wait-any case over candidates `index ..`: true as soon
      as one candidate has both peers bound. */
  function AnyCommReady(comms: seq<Comm>, index: nat): (r: bool)
    requires index <= |comms|
    ensures r <==> exists i | index <= i < |comms| :: BothPeers(comms[i])
    decreases |comms| - index
  {
    if index == |comms| then false
    else if BothPeers(comms[index]) then true
    else AnyCommReady(comms, index + 1)
  }

  /** actor_is_enabled, client side: whether firing the actor's pending
      request cannot block the exploration forever. `mcTimeout` is the
      timeout policy flag (`_sg_mc_timeout`); only the value 1 makes a
      timeout count as always fireable. */
  function ActorIsEnabled(req: Simcall, mcTimeout: int): (r: bool)
    ensures req.call.NoCall? ==> !r
    ensures req.call.CommWait? && HasTimeout(req.call.comm) && mcTimeout == 1 ==> r
    ensures req.call.CommWait? && HasTimeout(req.call.comm) && mcTimeout != 1 ==>
              (r <==> BothPeers(req.call.comm))
    ensures req.call.CommWait? && !HasTimeout(req.call.comm) ==>
              var c := req.call.comm;
              if c.detached && c.srcActor.None? && c.kind == Ready
              then r <==> c.dstActor.Some?
              else r <==> BothPeers(c)
    ensures req.call.CommWaitany? ==>
              (r <==> exists i | 0 <= i < |req.call.comms| :: BothPeers(req.call.comms[i]))
    ensures req.call.MutexLock? ==>
              (r <==> req.call.mutex.owner.None? || req.call.mutex.owner.value == req.issuer)
    ensures !req.call.NoCall? && !req.call.CommWait? && !req.call.CommWaitany? && !req.call.MutexLock? ==> r
  {
    match req.call
    case NoCall => false
    case CommWait(c) =>
      if HasTimeout(c) && mcTimeout == 1 then true
      else if !HasTimeout(c) && c.detached && c.srcActor.None? && c.kind == Ready then c.dstActor.Some?
      else BothPeers(c)
    case CommWaitany(comms) => AnyCommReady(comms, 0)
    case MutexLock(m) => m.owner.None? || m.owner.value == req.issuer
    case SemAcquire => true
    case CondWait => true
    case _ => true
  }

  /** A wait whose rendezvous is complete is enabled under either timeout
      policy, and so is a wait-any among whose candidates it is. */
  lemma RendezvousEnabled(issuer: Pid, c: Comm, others: seq<Comm>, mcTimeout: int)
    requires BothPeers(c)
    ensures ActorIsEnabled(Simcall(issuer, CommWait(c), 0), mcTimeout)
    ensures ActorIsEnabled(Simcall(issuer, CommWaitany(others + [c]), 0), mcTimeout)
  {
    assert (others + [c])[|others|] == c;
  }

  /** A mutex held by another actor never lets a lock request through. */
  lemma MutexOfOtherBlocks(issuer: Pid, owner: Pid, mcTimeout: int)
    requires owner != issuer
    ensures !ActorIsEnabled(Simcall(issuer, MutexLock(Mutex(Some(owner))), 0), mcTimeout)
  {
  }

  /** With the timeout policy off a timeout does not fall back to the
      detached-and-ready rule: the same detached, ready communication that
      only has its receiver is enabled without a timeout and disabled with
      one. */
  lemma TimeoutPolicyOffSkipsDetachedRule(issuer: Pid, dst: Pid)
    ensures var c := Comm(None, Some(dst), true, false, false, Ready);
            ActorIsEnabled(Simcall(issuer, CommWait(c), 0), 0)
    ensures var c := Comm(None, Some(dst), true, true, false, Ready);
            !ActorIsEnabled(Simcall(issuer, CommWait(c), 0), 0)
  {
  }

  // ---------------------------------------------------------------------
  // Visibility

  /** request_is_visible: the requests the exploration algorithm sees. Every
      other request is serviced on the application side at once. */
  function RequestIsVisible(call: Call): (r: bool)
    ensures !r <==> call.NoCall? || call.SemAcquire? || call.CondWait? || call.OtherCall?
  {
    call.CommIsend? || call.CommIrecv? || call.CommWait? || call.CommWaitany? || call.CommTest?
    || call.CommTestany? || call.McRandom? || call.MutexLock? || call.MutexTrylock? || call.MutexUnlock?
  }

  /** Only visible requests can be disabled: servicing an invisible, non-empty
      request right away can never block the application. */
  lemma InvisibleRequestsAreEnabled(req: Simcall, mcTimeout: int)
    requires !req.call.NoCall? && !RequestIsVisible(req.call)
    ensures ActorIsEnabled(req, mcTimeout)
  {
  }

  // ---------------------------------------------------------------------
  // Random draws

  /** Raised when MC_random is called from the checker process itself. */
  datatype McError = CalledFromChecker

  /** simcall_HANDLER_mc_random. Outside the model checker and without a
      record path the value is a pseudo-random draw in `[min, max]`, given
      here as `draw` (the generator is not part of this model); otherwise it
      is the value recorded in the request, whatever the bounds. */
  function McRandomHandler(simcall: Simcall, min: int, max: int, mcActive: bool, recordPath: string, draw: int): (r: int)
    requires !mcActive && recordPath == [] ==> min <= draw <= max
    ensures mcActive || recordPath != [] ==> r == simcall.mcValue
    ensures !mcActive && recordPath == [] ==> min <= r <= max
  {
    if !mcActive && recordPath == [] then draw else simcall.mcValue
  }

  /** MC_random: only the application side may draw; the checker process
      itself calling it is a fatal error. */
  function McRandomCall(checkerAttached: bool, simcall: Simcall, min: int, max: int,
                        mcActive: bool, recordPath: string, draw: int): (r: Result<int, McError>)
    requires !mcActive && recordPath == [] ==> min <= draw <= max
    ensures r.Failure? <==> checkerAttached
    ensures r.Success? && (mcActive || recordPath != []) ==> r.value == simcall.mcValue
    ensures r.Success? && !mcActive && recordPath == [] ==> min <= r.value <= max
  {
    if checkerAttached then Failure(CalledFromChecker)
    else Success(McRandomHandler(simcall, min, max, mcActive, recordPath, draw))
  }

  /** Bounds `[lo, hi]` of one random call. */
  type Bounds = (int, int)

  predicate InBounds(draws: seq<int>, bounds: seq<Bounds>)
    requires |draws| == |bounds|
  {
    forall i | 0 <= i < |draws| :: bounds[i].0 <= draws[i] <= bounds[i].1
  }

  /** A run of successive random calls by `issuer`: call `i` has bounds
      `bounds[i]`, carries the recorded value `recorded[i]`, and the generator
      would yield `draws[i]`. */
  function RunDraws(issuer: Pid, bounds: seq<Bounds>, recorded: seq<int>, draws: seq<int>,
                    mcActive: bool, recordPath: string): (r: seq<int>)
    requires |recorded| == |bounds| && |draws| == |bounds|
    requires !mcActive && recordPath == [] ==> InBounds(draws, bounds)
    ensures |r| == |bounds|
    ensures !mcActive && recordPath == [] ==> InBounds(r, bounds)
  {
    if |bounds| == 0 then []
    else
      var call := Simcall(issuer, McRandom(bounds[0].0, bounds[0].1), recorded[0]);
      [McRandomHandler(call, bounds[0].0, bounds[0].1, mcActive, recordPath, draws[0])]
      + RunDraws(issuer, bounds[1..], recorded[1..], draws[1..], mcActive, recordPath)
  }

  /** Replay reproduces a recorded run: feeding the values a free run
      returned back as the recorded values, under the model checker or a
      record path, returns the same values whatever bounds and generator
      values the replaying run passes. */
  lemma {:induction false} ReplayRoundTrip(issuer: Pid, bounds: seq<Bounds>, draws: seq<int>,
                                           bounds': seq<Bounds>, draws': seq<int>,
                                           mcActive': bool, recordPath': string)
    requires |draws| == |bounds| && InBounds(draws, bounds)
    requires |bounds'| == |bounds| && |draws'| == |bounds|
    requires mcActive' || recordPath' != []
    ensures var run := RunDraws(issuer, bounds, draws, draws, false, []);
            RunDraws(issuer, bounds', run, draws', mcActive', recordPath') == run
  {
    var run := RunDraws(issuer, bounds, draws, draws, false, []);
    ReplayReturnsRecorded(issuer, bounds', run, draws', mcActive', recordPath');
  }

  /** Under the model checker or a record path every call returns its
      recorded value. */
  lemma {:induction false} ReplayReturnsRecorded(issuer: Pid, bounds: seq<Bounds>, recorded: seq<int>, draws: seq<int>,
                                                 mcActive: bool, recordPath: string)
    requires |recorded| == |bounds| && |draws| == |bounds|
    requires mcActive || recordPath != []
    ensures RunDraws(issuer, bounds, recorded, draws, mcActive, recordPath) == recorded
  {
    if |bounds| > 0 {
      ReplayReturnsRecorded(issuer, bounds[1..], recorded[1..], draws[1..], mcActive, recordPath);
      assert recorded == [recorded[0]] + recorded[1..];
    }
  }
}

=== FILE: mc_scheduler.dfy ===
/** wait_for_requests (src/mc/mc_base.cpp): the application-side loop that
    runs the ready actors round after round and services at once every
    request the exploration does not see, until every actor is blocked on a
    visible request, a blocking invisible one, or nothing. */
module McScheduler {
  import opened McSimcall
  import opened McBase

  /** The kernel state the loop reads and writes: every actor's pending
      request and the actors ready to run (`actors_to_run`), in order. */
  datatype Kernel = Kernel(requests: map<Pid, Call>, toRun: seq<Pid>)

  /** A request the application services itself: non-empty and invisible. */
  predicate Serviceable(c: Call) {
    !c.NoCall? && !RequestIsVisible(c)
  }

  /** A request the loop has nothing more to do with: it is empty, visible,
      or invisible but not answered at once (its actor stays blocked).
      `answersNow` says whether the kernel answers a request on the spot,
      rescheduling its actor; the kernel's handlers are not part of this
      model. */
  predicate Settled(c: Call, answersNow: Call -> bool) {
    !Serviceable(c) || !answersNow(c)
  }

  /** No actor of `ran` holds a request the loop would service. */
  predicate NoneServiceable(requests: map<Pid, Call>, ran: seq<Pid>) {
    forall p | p in ran && p in requests :: !Serviceable(requests[p])
  }

  /** The actors never issue a request the loop would service. */
  ghost predicate NeverServiceable(issue: (Pid, nat) -> Call) {
    forall p, r :: !Serviceable(issue(p, r))
  }

  /** run_all_actors: each actor of `actors` runs until it issues its next
      request, which `issue(pid, round)` gives (the actors' code is not part
      of this model). */
  function RunActors(requests: map<Pid, Call>, actors: seq<Pid>, issue: (Pid, nat) -> Call, round: nat): (r: map<Pid, Call>)
    ensures r.Keys == requests.Keys + (set p | p in actors)
    ensures forall p | p in actors :: r[p] == issue(p, round)
    ensures forall p | p in requests && p !in actors :: r[p] == requests[p]
    decreases |actors|
  {
    if |actors| == 0 then requests
    else RunActors(requests[actors[0] := issue(actors[0], round)], actors[1..], issue, round)
  }

  /** The kernel answering the requests of the actors `qs`, in order: a
      pending request is cleared and its actor appended to the ready list;
      an actor with no pending request is skipped. Only answered requests
      change, and the ready list gains exactly the actors answered. */
  function Answer(requests: map<Pid, Call>, toRun: seq<Pid>, qs: seq<Pid>): (r: (map<Pid, Call>, seq<Pid>))
    ensures r.0.Keys == requests.Keys
    ensures forall p | p in requests :: r.0[p] == requests[p] || r.0[p] == NoCall
    ensures forall p | p in qs && p in requests :: r.0[p] == NoCall
    ensures forall p | p in requests && p !in qs :: r.0[p] == requests[p]
    ensures |r.1| >= |toRun| && r.1[..|toRun|] == toRun
    ensures forall p :: p in r.1 <==> p in toRun || (p in requests && !requests[p].NoCall? && r.0[p].NoCall?)
    decreases |qs|
  {
    if |qs| == 0 then (requests, toRun)
    else if qs[0] in requests && !requests[qs[0]].NoCall? then
      Answer(requests[qs[0] := NoCall], toRun + [qs[0]], qs[1..])
    else Answer(requests, toRun, qs[1..])
  }

  /** One turn of the inner loop, on actor `p`: a non-empty, invisible
      request is handed to the kernel, which answers it when `answersNow`
      says so, and also answers the requests of the actors `wakes` names (an
      activity the handler completes answers every request waiting on it).
      Any other request is left alone. */
  function ServiceOne(requests: map<Pid, Call>, toRun: seq<Pid>, p: Pid, answersNow: Call -> bool,
                      wakes: (map<Pid, Call>, Pid) -> seq<Pid>): (r: (map<Pid, Call>, seq<Pid>))
    requires p in requests
    ensures r.0.Keys == requests.Keys
    ensures forall q | q in requests :: r.0[q] == requests[q] || r.0[q] == NoCall
    ensures Settled(r.0[p], answersNow)
    ensures !Settled(requests[p], answersNow) ==> r.0[p] == NoCall
    ensures forall q :: q in r.1 <==> q in toRun || (q in requests && !requests[q].NoCall? && r.0[q].NoCall?)
    ensures |r.1| >= |toRun| && r.1[..|toRun|] == toRun
    ensures !Serviceable(requests[p]) ==> r == (requests, toRun)
  {
    var req := requests[p];
    if !req.NoCall? && !RequestIsVisible(req) then
      Answer(requests, toRun, (if answersNow(req) then [p] else []) + wakes(requests, p))
    else (requests, toRun)
  }

  /** The inner loop: every actor that ran, in order, has its request
      serviced when it is still non-empty and invisible. An answered
      request is cleared and its actor appended to the ready list. When no
      actor that ran holds such a request, nothing changes. */
  method ServiceRequests(k: Kernel, ran: seq<Pid>, answersNow: Call -> bool,
                         wakes: (map<Pid, Call>, Pid) -> seq<Pid>) returns (k': Kernel)
    requires forall p | p in ran :: p in k.requests
    ensures k'.requests.Keys == k.requests.Keys
    ensures forall p | p in k.requests :: k'.requests[p] == k.requests[p] || k'.requests[p] == NoCall
    ensures forall p | p in ran :: Settled(k'.requests[p], answersNow)
    ensures forall p | p in ran && !Settled(k.requests[p], answersNow) :: k'.requests[p] == NoCall
    ensures forall p :: p in k'.toRun <==>
              p in k.toRun || (p in k.requests && !k.requests[p].NoCall? && k'.requests[p].NoCall?)
    ensures |k'.toRun| >= |k.toRun| && k'.toRun[..|k.toRun|] == k.toRun
    ensures NoneServiceable(k.requests, ran) ==> k' == k
  {
    var requests := k.requests;
    var toRun := k.toRun;
    var j := 0;
    while j < |ran|
      invariant 0 <= j <= |ran|
      invariant requests.Keys == k.requests.Keys
      invariant forall p | p in k.requests :: requests[p] == k.requests[p] || requests[p] == NoCall
      invariant forall p | p in ran[..j] :: Settled(requests[p], answersNow)
      invariant forall p | p in ran[..j] && !Settled(k.requests[p], answersNow) :: requests[p] == NoCall
      invariant forall p :: p in toRun <==>
                  p in k.toRun || (p in k.requests && !k.requests[p].NoCall? && requests[p].NoCall?)
      invariant |toRun| >= |k.toRun| && toRun[..|k.toRun|] == k.toRun
      invariant NoneServiceable(k.requests, ran) ==> requests == k.requests && toRun == k.toRun
    {
      var p := ran[j];
      assert ran[..j + 1] == ran[..j] + [p];
      var r := ServiceOne(requests, toRun, p, answersNow, wakes);
      assert r.1[..|k.toRun|] == toRun[..|k.toRun|];
      requests, toRun := r.0, r.1;
      j := j + 1;
    }
    assert ran[..j] == ran;
    k' := Kernel(requests, toRun);
  }

  /** One round of the outer loop: the ready actors run, then their requests
      are serviced. Afterwards every actor that ran holds a settled request,
      every actor made ready again holds a cleared one, and the others'
      requests are unchanged or cleared. When nobody is ready again, the
      actors that ran still hold the requests they issued. */
  method Round(k: Kernel, issue: (Pid, nat) -> Call, answersNow: Call -> bool,
               wakes: (map<Pid, Call>, Pid) -> seq<Pid>, round: nat) returns (k': Kernel)
    ensures k.requests.Keys <= k'.requests.Keys
    ensures forall p | p in k.toRun :: p in k'.requests && Settled(k'.requests[p], answersNow)
    ensures k'.toRun == [] ==> forall p | p in k.toRun :: k'.requests[p] == issue(p, round)
    ensures forall p | p in k'.toRun :: p in k'.requests && k'.requests[p] == NoCall
    ensures forall p | p in k.requests && p !in k.toRun :: k'.requests[p] == k.requests[p] || k'.requests[p] == NoCall
    ensures NeverServiceable(issue) ==> k'.toRun == []
  {
    var ran := k.toRun;
    var requests := RunActors(k.requests, ran, issue, round);
    k' := ServiceRequests(Kernel(requests, []), ran, answersNow, wakes);
    assert NeverServiceable(issue) ==> NoneServiceable(requests, ran);
  }

  /** The outer loop, for at most `fuel` rounds. When it stops with no actor
      ready, every actor of the last round still holds the request it issued
      in that round, and every actor that ran in any round holds a request
      that is empty, visible or blocking; an actor left ready holds a cleared
      request. `lastRan` is the actors of the last round, `everRan` those of
      all rounds. When the actors never issue a request the loop services,
      one round suffices. */
  method WaitForRequests(k0: Kernel, issue: (Pid, nat) -> Call, answersNow: Call -> bool,
                         wakes: (map<Pid, Call>, Pid) -> seq<Pid>, fuel: nat)
    returns (k: Kernel, rounds: nat, lastRan: seq<Pid>, everRan: set<Pid>)
    ensures rounds <= fuel
    ensures k0.toRun == [] ==> k == k0 && rounds == 0
    ensures k.toRun != [] ==> rounds == fuel
    ensures k0.requests.Keys <= k.requests.Keys
    ensures rounds > 0 ==> forall p | p in lastRan :: p in k.requests && Settled(k.requests[p], answersNow)
    ensures rounds > 0 && k.toRun == [] ==> forall p | p in lastRan :: k.requests[p] == issue(p, rounds - 1)
    ensures rounds > 0 ==> forall p | p in k.toRun :: p in k.requests && k.requests[p] == NoCall
    ensures everRan == {} <==> rounds == 0
    ensures forall p | p in lastRan :: p in everRan
    ensures forall p | p in everRan :: p in k.requests && (p in k.toRun || Settled(k.requests[p], answersNow))
    ensures k.toRun == [] ==> forall p | p in everRan :: p in k.requests && Settled(k.requests[p], answersNow)
    ensures NeverServiceable(issue) && k0.toRun != [] && fuel > 0 ==> rounds == 1 && k.toRun == []
  {
    k := k0;
    rounds := 0;
    lastRan := [];
    everRan := {};
    while k.toRun != [] && rounds < fuel
      invariant rounds <= fuel
      invariant k0.requests.Keys <= k.requests.Keys
      invariant rounds == 0 ==> k == k0
      invariant k0.toRun == [] ==> rounds == 0
      invariant rounds > 0 ==> forall p | p in lastRan :: p in k.requests && Settled(k.requests[p], answersNow)
      invariant rounds > 0 && k.toRun == [] ==> forall p | p in lastRan :: k.requests[p] == issue(p, rounds - 1)
      invariant rounds > 0 ==> forall p | p in k.toRun :: p in k.requests && k.requests[p] == NoCall
      invariant everRan == {} <==> rounds == 0
      invariant forall p | p in lastRan :: p in everRan
      invariant forall p | p in everRan :: p in k.requests && (p in k.toRun || Settled(k.requests[p], answersNow))
      invariant NeverServiceable(issue) && k0.toRun != [] && rounds > 0 ==> rounds == 1 && k.toRun == []
      decreases fuel - rounds
    {
      lastRan := k.toRun;
      k := Round(k, issue, answersNow, wakes, rounds);
      everRan := everRan + (set p | p in lastRan);
      assert lastRan[0] in everRan;
      rounds := rounds + 1;
    }
  }
}

=== FILE: mc_simcall.dfy ===
/** The pending request ("simcall") an actor of the simulation kernel hands
    to the model checker, with the parts of the communication and mutex
    objects the enabledness oracle reads. */
module McSimcall {
  import opened Wrappers

  /** Actor identifier (`aid_t`). */
  type Pid = nat

  /** Readiness of a communication. Only `Ready` is tested by the oracle. */
  datatype CommType = Pending | Ready | Done

  /** A communication activity: its two peers (absent until matched), whether
      it is detached (fire-and-forget), whether either side waits with a
      timeout, and its readiness. */
  datatype Comm = Comm(
    srcActor: Option<Pid>,
    dstActor: Option<Pid>,
    detached: bool,
    srcTimeout: bool,
    dstTimeout: bool,
    kind: CommType)

  /** Both peers of the rendezvous are bound. */
  predicate BothPeers(c: Comm) {
    c.srcActor.Some? && c.dstActor.Some?
  }

  predicate HasTimeout(c: Comm) {
    c.srcTimeout || c.dstTimeout
  }

  /** A mutex, reduced to its current owner. */
  datatype Mutex = Mutex(owner: Option<Pid>)

  /** The call kinds the oracles distinguish, each with the argument the
      oracle reads. `NoCall` is the cleared request (`SIMCALL_NONE`);
      `OtherCall` stands for every kind the oracles do not name. */
  datatype Call =
    | NoCall
    | CommIsend
    | CommIrecv
    | CommWait(comm: Comm)
    | CommWaitany(comms: seq<Comm>)
    | CommTest
    | CommTestany
    | McRandom(min: int, max: int)
    | MutexLock(mutex: Mutex)
    | MutexTrylock
    | MutexUnlock
    | SemAcquire
    | CondWait
    | OtherCall(code: nat)

  /** A request: the actor that issued it, the call, and the value the model
      checker recorded for it (read back by the random handler). */
  datatype Simcall = Simcall(issuer: Pid, call: Call, mcValue: int)
}

=== FILE: wrappers.dfy ===
/** Failure-carrying return types: `Option` stands for a result that may be
    a null pointer, `Result` for a call that may raise an exception. These
    are local stand-ins for the usual library types of the same names, so
    that the project depends on nothing outside itself. */
module Wrappers {

  datatype Option<+T> = None | Some(value: T)

  datatype Result<+R, +E> = Success(value: R) | Failure(error: E)
}
